=== FILE: README.md ===
# KSCrash crash-time capture core, modelled in Dafny

This project models the bookkeeping that KSCrash performs at the moment of
a crash to decide which threads, registers, signal names and stack frames
end up in a report:

- **Machine context** (`MachineContext`, from `KSMachineContext.c`). It covers
  the bounded reserved-thread list and the rule that picks the threads to
  suspend and resume. It also covers how the process thread list is cut to the
  context's capacity, how a context is filled for a thread or for a signal
  delivery, and the `indexOfThread` search.
- **Thread-metadata cache** (`CachedData`, from `KSCrashCachedData.c`). It
  covers the freeze counter, `ksccd_init`, one cycle of the background worker
  with its poll schedule, and the build and swap of a new generation of the
  four parallel arrays. It also covers the name lookups.
- **arm64 register accessor** (`CpuArm64`, from `KSCPU_arm64.c`). It covers the
  register name tables, the index-to-register maps, the named accessors, and
  the pointer-authentication stripping mask.
- **Signal classification table** (`SignalInfo`, from `KSSignalInfo.c`). It
  covers the nine fatal signals, their code tables and both lookups.
- **Stack cursor** (`StackCursor`, from `KSStackCursor.c` and
  `KSStackCursor_Backtrace.c`). It covers reset, initialisation with fallback
  slots, and the backtrace-array producer. That producer is a restartable walk
  over `backtrace[skip..]` that stops at the end of the array or at a sentinel
  address of 0 or 1.

Operating-system primitives are inputs to the model:

- Thread enumeration is an `Option<seq<Thread>>`, where `None` means
  `task_threads` failed.
- Register reads are a register block.
- The stack-overflow verdict is a boolean.
- Each enumerated thread's name and queue-name query results come in a
  `ThreadProbe`.

Global state becomes an explicit record: `ReservedThreads`, `Cache`,
`Monitor` and `Cursor`. Each C entry point becomes a function from one state
to the next. The loops whose shape matters are kept as methods with loop
invariants: `IsThreadInList`, `SuspendEnvironment`, `ResumeEnvironment` and
`IndexOfThread`.

Signal and code numbers are the values from Darwin's `<sys/signal.h>`. The
Darwin `*_NOOP` codes (all 0) are included, because Darwin defines them.
Every property is stated by name, so only the fact that the numbers are
distinct matters.

Three behaviours of the code worth noting:

- `ksmc_getContextForSignal` does not zero its destination and does not set
  `isCurrentThread`. `GetContextForSignal` therefore takes the destination as
  input and keeps that flag. When the enumeration fails it also keeps the old
  thread list.
- The backtrace producer has no maximum depth and never sets `hasGivenUp`.
  It stops only at the end of the array or at a sentinel.
- Freeing the old names up to `oldThreadsCount` neither leaks nor
  double-frees in the sequential model: `RefreshKeepsConsistent` shows that
  the count read before a refresh is exactly the length of the generation
  being replaced.

## Model

| member | source | states |
|---|---|---|
| Common.FirstIndex | Sources/KSCrashRecording/KSCrashCachedData.c:248-252 | The linear scan returns the least index below the count holding the key. It returns none exactly when no index below the count holds it, and a negative count scans nothing. |
| MachineContext.AddReservedThread | Sources/KSCrashRecordingCore/KSMachineContext.c:183-191 | Below ten entries the thread is appended. At ten entries the list is left unchanged, so a list of at most ten stays at most ten. |
| MachineContext.AddAllKeepsFirstTen | Sources/KSCrashRecordingCore/KSMachineContext.c:183-191 | Any sequence of additions keeps the first ten requested threads in order, drops the rest, and never exceeds ten. |
| MachineContext.IsThreadInList | Sources/KSCrashRecordingCore/KSMachineContext.c:194-202 | The result is true exactly when the thread occurs among the first `listCount` entries. |
| MachineContext.SelectedMembers | Sources/KSCrashRecordingCore/KSMachineContext.c:221-231 | A thread is selected for suspension exactly when it was enumerated and is neither the calling thread nor reserved. |
| MachineContext.SuspendEnvironment | Sources/KSCrashRecordingCore/KSMachineContext.c:205-235 | The suspend requests go to exactly the enumerated threads that are neither the caller nor reserved, in enumeration order. A failed enumeration suspends nothing. The enumerated list is handed back unchanged. |
| MachineContext.ResumeEnvironment | Sources/KSCrashRecordingCore/KSMachineContext.c:237-267 | A NULL list or an empty list does nothing. Otherwise the resume requests go to the same selection as suspension, and every listed port is released. |
| MachineContext.ResumeMatchesSuspend | Sources/KSCrashRecordingCore/KSMachineContext.c:221-258 | Resuming with the list a suspend pass returned, with the same caller and reserved set, resumes exactly the threads that pass suspended. |
| MachineContext.ThreadListFor | Sources/KSCrashRecordingCore/KSMachineContext.c:94-118 | An enumeration that fits is kept whole. An overlong one is cut to `capacity` entries and its first `capacity-1` entries are kept. No entry is invented, and the context's own thread survives: when it lies beyond the capacity it is placed in the last slot. |
| MachineContext.ReleasedPortsAsWritten | Sources/KSCrashRecordingCore/KSMachineContext.c:103-123 | As written, the ports released after the thread list is captured are the kernel array with only slot `capacity-1` overwritten, by the crashed thread, and only when that thread lies beyond the capacity. Every other slot, and the whole array when nothing is moved, is the kernel's own port. |
| MachineContext.ReleasedPortsAsWrittenLosesPort | Sources/KSCrashRecordingCore/KSMachineContext.c:103-123 | For every enumeration where the crashed thread lies beyond the capacity and slot `capacity-1` holds a different thread, its port is released once more than it was handed out. The release list is therefore never the enumerated multiset. |
| MachineContext.ReleasedPortsAsWrittenMisses | Sources/KSCrashRecordingCore/KSMachineContext.c:103-123 | With threads [1,2,3], capacity 2 and crashed thread 3, the as-written release list is [1,3,3]. That is not the enumerated multiset. |
| MachineContext.FillThreadList | Sources/KSCrashRecordingCore/KSMachineContext.c:72-128 | A failed enumeration leaves the context unchanged. Otherwise the count is min(n, capacity), the stored prefix is the truncated list, the rest of the array and every other field are unchanged, and each enumerated port is released exactly once. |
| MachineContext.GetContextForThread | Sources/KSCrashRecordingCore/KSMachineContext.c:135-166 | The context is zeroed and never marked as a signal context. Registers are fetched exactly when the thread is not the caller, so CPU state is valid exactly then. Exception registers are valid exactly for a crashed context of another thread. The overflow flag and the thread list are filled only for a crashed context. The thread array then holds the truncated list followed by zeros. |
| MachineContext.GetContextForSignal | Sources/KSCrashRecordingCore/KSMachineContext.c:169-181 | The result is always crashed and signal-delivered, so its CPU state and exception registers are valid. It holds the signal's registers, and `isCurrentThread` keeps the destination's prior value. A failed enumeration keeps the prior thread list. Otherwise the truncated list is stored in front of the destination's old array tail. |
| MachineContext.IndexOfThread | Sources/KSCrashRecordingCore/KSMachineContext.c:273-283 | Returns the least index below the thread count whose entry is the thread, or -1 exactly when no such index exists. |
| CachedData.Freeze | Sources/KSCrashRecording/KSCrashCachedData.c:217-223 | The counter rises. From a non-negative counter the refresh gate is then closed. |
| CachedData.FreezeWaits | Sources/KSCrashRecording/KSCrashCachedData.c:219-222 | The freeze pauses exactly when the gate was open on entry, so a refresh may be running. From a non-negative counter, that is exactly the freeze that closes the gate. |
| CachedData.Unfreeze | Sources/KSCrashRecording/KSCrashCachedData.c:225-231 | From c >= 0 the result is max(c-1, 0). A negative counter is left as it is. |
| CachedData.GateNeverNegative | Sources/KSCrashRecording/KSCrashCachedData.c:217-231 | Starting from a non-negative counter, no sequence of freeze and unfreeze calls, however unbalanced, makes it negative. |
| CachedData.FreezeThenUnfreezeRestores | Sources/KSCrashRecording/KSCrashCachedData.c:217-231 | A freeze followed by an unfreeze restores any non-negative counter. |
| CachedData.Init | Sources/KSCrashRecording/KSCrashCachedData.c:178-189 | The first call records the interval and marks the worker started. A call after that changes nothing. |
| CachedData.InitIsIdempotent | Sources/KSCrashRecording/KSCrashCachedData.c:178-189 | A second initialisation with any interval leaves the whole state of the first, including its interval. |
| CachedData.BuildGeneration | Sources/KSCrashRecording/KSCrashCachedData.c:88-112 | The four arrays have one entry per enumerated thread, and entry i describes thread i. A thread without a POSIX handle gets no name, and no stored name is empty. All queue names are absent when queue-name search is off. |
| CachedData.SwapSteps | Sources/KSCrashRecording/KSCrashCachedData.c:115-120 | The count is first lowered to min(old, new). At every one of the six published states the count stays within the length of every installed array. The last state holds the new generation and its count. |
| CachedData.UpdateThreadList | Sources/KSCrashRecording/KSCrashCachedData.c:62-120 | A failed enumeration leaves the cache unchanged. A successful one installs the new generation with count n and changes nothing else. |
| CachedData.RefreshKeepsConsistent | Sources/KSCrashRecording/KSCrashCachedData.c:68-146 | A refresh keeps the four arrays of equal length with that length as the count. The count read before the refresh is the length of the name arrays being freed. |
| CachedData.MonitorCycle | Sources/KSCrashRecording/KSCrashCachedData.c:162-173 | A refresh runs exactly when the counter is at most 0. Otherwise the cache is untouched. The interval and the counter are not changed by a cycle. |
| CachedData.SleepsFollowSchedule | Sources/KSCrashRecording/KSCrashCachedData.c:160-173 | With q quick polls left, the next q cycles sleep 1 second and later cycles sleep the configured interval as an unsigned value, whether or not a refresh ran. |
| CachedData.PollSchedule | Sources/KSCrashRecording/KSCrashCachedData.c:160-173 | From the worker's start, cycles 0 to 3 sleep 1 second and every later cycle sleeps the configured interval. |
| CachedData.LookupName | Sources/KSCrashRecording/KSCrashCachedData.c:245-267 | A NULL name array gives NULL. Otherwise the result is the entry at the first index below the count whose kernel handle matches, and NULL when no index matches. |
| CachedData.GetThreadName | Sources/KSCrashRecording/KSCrashCachedData.c:245-255 | The result is the thread-name entry at the first matching index. It is NULL when there is no match or the array is NULL. |
| CachedData.GetQueueName | Sources/KSCrashRecording/KSCrashCachedData.c:257-267 | The result is the queue-name entry at the first matching index. It is NULL when there is no match or the array is NULL. |
| CachedData.LookupAfterRefresh | Sources/KSCrashRecording/KSCrashCachedData.c:237-267 | After a successful refresh the lookups answer from the new generation: the name and queue name of the first enumerated thread with that handle, and `ksccd_getAllThreads` returns the enumerated handles in order with the enumeration's length as the count. |
| CachedData.UnknownThreadHasNoName | Sources/KSCrashRecording/KSCrashCachedData.c:245-267 | After a refresh, a handle that was not enumerated has neither a name nor a queue name. |
| CpuArm64.NumRegisters | Sources/KSCrashRecordingCore/KSCPU_arm64.c:41-45 | There are 35 named registers, one per table entry. |
| CpuArm64.RegisterName | Sources/KSCrashRecordingCore/KSCPU_arm64.c:82-88 | A name exists exactly for indices below 35. Indices 0 to 29 are named "x" followed by the index in decimal, and 30 to 34 are named fp, lr, sp, pc and cpsr, in that order. |
| CpuArm64.GeneralNamesAreDecimal | Sources/KSCrashRecordingCore/KSCPU_arm64.c:41-44 | The first thirty table entries are "x0" to "x29", spelled as "x" plus the decimal index. |
| CpuArm64.RegisterValue | Sources/KSCrashRecordingCore/KSCPU_arm64.c:90-111 | Index i < 30 reads general slot i. Indices 30 to 34 read the frame pointer, link register, stack pointer, instruction address and status register. Any index past the 35 registers reads 0. |
| CpuArm64.NamedRegistersAgree | Sources/KSCrashRecordingCore/KSCPU_arm64.c:41-111 | The value at each index is the register its name denotes. `x<i>` reads general slot i, and the entries named fp, lr, sp, pc and cpsr read the frame-pointer, link-register, stack-pointer, instruction-address and status accessors. |
| CpuArm64.NamedRegisterPositions | Sources/KSCrashRecordingCore/KSCPU_arm64.c:41-44 | Indices 30 to 34 are named fp, lr, sp, pc and cpsr and read the frame pointer, link register, stack pointer, instruction address and status register. |
| CpuArm64.NumExceptionRegisters | Sources/KSCrashRecordingCore/KSCPU_arm64.c:47-48 | There are 3 exception registers. |
| CpuArm64.ExceptionRegisterName | Sources/KSCrashRecordingCore/KSCPU_arm64.c:115-122 | A name exists exactly for indices below 3. Index 0 is "exception", 1 is "esr" and 2 is "far". |
| CpuArm64.ExceptionRegisterValue | Sources/KSCrashRecordingCore/KSCPU_arm64.c:124-137 | Index 0 reads the exception class, 1 the syndrome register and 2 the fault address. Any other index reads 0. |
| CpuArm64.ExceptionRegistersAgree | Sources/KSCrashRecordingCore/KSCPU_arm64.c:124-139 | The registers named exception, esr and far sit at indices 0, 1 and 2 and read those registers. The fault address equals exception register 2. |
| CpuArm64.StackGrowDirection | Sources/KSCrashRecordingCore/KSCPU_arm64.c:141 | The stack grows downward, one unit per step. |
| CpuArm64.NormaliseInstructionPointer | Sources/KSCrashRecordingCore/KSCPU_arm64.c:143 | Masking keeps the address modulo 2^36. |
| CpuArm64.NormaliseBounds | Sources/KSCrashRecordingCore/KSCPU_arm64.c:39 | A normalised address is below 2^36 and at most the raw address, and normalising it again changes nothing. |
| SignalInfo.SignalName | Sources/KSCrashRecordingCore/KSSignalInfo.c:113-121 | A name exists exactly for signals on the fatal list, and it is the name in that signal's table row. |
| SignalInfo.CodeName | Sources/KSCrashRecordingCore/KSSignalInfo.c:127-131 | A found name belongs to an entry carrying the code. None is returned exactly when no entry carries it. With distinct codes the result is that entry's name. |
| SignalInfo.SignalCodeName | Sources/KSCrashRecordingCore/KSSignalInfo.c:123-135 | A found name is a row of the table for that (signal, code) pair. NULL is returned exactly when no row describes the pair. |
| SignalInfo.CodeNameIsUnique | Sources/KSCrashRecordingCore/KSSignalInfo.c:123-135 | Any table row for a (signal, code) pair is the answer the lookup gives. |
| SignalInfo.FatalSignals | Sources/KSCrashRecordingCore/KSSignalInfo.c:100-110 | The fatal-signal list has the table's length and lists the table's signals in the same order. |
| SignalInfo.NumFatalSignals | Sources/KSCrashRecordingCore/KSSignalInfo.c:95 | The count equals the table's length and the list's length. |
| SignalInfo.NineDistinctFatalSignals | Sources/KSCrashRecordingCore/KSSignalInfo.c:90-110 | There are nine fatal signals, pairwise distinct. |
| SignalInfo.SignalNamesAreStringified | Sources/KSCrashRecordingCore/KSSignalInfo.c:87-95 | Each of the nine signals is named by its own identifier, for example SIGSEGV is named "SIGSEGV". |
| SignalInfo.SegvCodeNames | Sources/KSCrashRecordingCore/KSSignalInfo.c:79-85 | (SIGSEGV, SEGV_MAPERR) is named "SEGV_MAPERR" and (SIGSEGV, SEGV_ACCERR) is named "SEGV_ACCERR". |
| SignalInfo.TrapCodeZero | Sources/KSCrashRecordingCore/KSSignalInfo.c:55-59 | SIGTRAP with code 0 is named by the literal "0". |
| SignalInfo.NoCodeTableMeansNoCodeName | Sources/KSCrashRecordingCore/KSSignalInfo.c:88-93 | SIGABRT, SIGPIPE, SIGSYS and SIGTERM have no code name for any code. |
| SignalInfo.CodeNameImpliesSignalName | Sources/KSCrashRecordingCore/KSSignalInfo.c:123-135 | A code name is found only for a signal that itself has a name. |
| StackCursor.Reset | Sources/KSCrashRecordingCore/KSStackCursor.c:42-51 | Depth becomes 0, the cursor has not given up, and the frame is empty. The producer payload and the operation slots are untouched. |
| StackCursor.ResetIsIdempotent | Sources/KSCrashRecordingCore/KSStackCursor.c:42-51 | Resetting twice is the same as resetting once. |
| StackCursor.InitCursor | Sources/KSCrashRecordingCore/KSStackCursor.c:53-64 | The symbolicator is installed. The advance slot holds the given advance, or the fallback when NULL. The reset slot holds the given reset, or `kssc_resetCursor` when NULL. The installed reset has then been run, so running it again changes nothing. With `kssc_resetCursor` the cursor is in the reset state and the payload is untouched. |
| StackCursor.ApplyReset | Sources/KSCrashRecordingCore/KSStackCursor.c:42-63 | `kssc_resetCursor` clears depth, the given-up flag and the frame, and keeps the payload. A caller's reset leaves the state, frame and payload it describes. Neither changes any slot. |
| StackCursor.ApplyResetIsIdempotent | Sources/KSCrashRecordingCore/KSStackCursor.c:42-63 | Running the installed reset twice is running it once, for both kinds of reset. |
| StackCursor.FallbackStep | Sources/KSCrashRecordingCore/KSStackCursor.c:34-40 | The fallback advance always fails and leaves the cursor unchanged. |
| StackCursor.BacktraceStep | Sources/KSCrashRecordingCore/KSStackCursor_Backtrace.c:36-61 | The step succeeds exactly when depth < length - skip and the entry at depth + skip is above 1. On success the address is that entry normalised and depth grows by exactly 1, with nothing else changed. On failure the cursor is unchanged. The depth bound 0 <= depth <= max(0, length - skip) is preserved. |
| StackCursor.Advance | Sources/KSCrashRecordingCore/KSStackCursor.c:34-61 | Advancing runs the installed producer: the fallback never advances, and the backtrace slot runs the backtrace step. |
| StackCursor.InitWithBacktrace | Sources/KSCrashRecordingCore/KSStackCursor_Backtrace.c:76-88 | The cursor is reset, satisfies the depth bound, and holds the default reset, the backtrace advance, the symbolicator, and the given array, length and skip. |
| StackCursor.WalkToEnd | Sources/KSCrashRecordingCore/KSStackCursor_Backtrace.c:36-61 | Advancing until failure emits one frame per depth step and ends on a stuck cursor: a further advance fails and changes nothing. The payload is kept. |
| StackCursor.WalkFromDepth | Sources/KSCrashRecordingCore/KSStackCursor_Backtrace.c:41-56 | From depth d the walk emits exactly the normalised entries of `backtrace[d+skip .. length)` up to the first sentinel. |
| StackCursor.WalkYieldsFrames | Sources/KSCrashRecordingCore/KSStackCursor_Backtrace.c:36-88 | A freshly initialised cursor emits exactly the normalised entries from index skip up to the length or the first entry <= 1. |
| StackCursor.SkipPastEndYieldsNothing | Sources/KSCrashRecordingCore/KSStackCursor_Backtrace.c:41-44 | With skip >= length the first advance fails. |
| StackCursor.ResetReplays | Sources/KSCrashRecordingCore/KSStackCursor.c:42-51 | After any amount of walking, a reset replays the full frame sequence, because the array, length and skip survive the reset. |
| StackCursor.SentinelStops | Sources/KSCrashRecordingCore/KSStackCursor_Backtrace.c:47-60 | A sentinel 0 or 1 at the current index is never emitted. The walk stops there and the cursor stays where it is. |
| StackCursor.ExampleFrames | Sources/KSCrashRecordingCore/KSStackCursor_Backtrace.c:36-61 | For [A,B,C,D] with skip 1, the promised frames are B, C, D, normalised. |
| StackCursor.ExampleWalk | Sources/KSCrashRecordingCore/KSStackCursor_Backtrace.c:76-88 | For [A,B,C,D] with skip 1, the cursor yields B, C, D, then fails. A reset replays the same three frames. |

## Findings

| source | as written | input that shows it | evidently intended | confidence | as-written member | corrected member |
|---|---|---|---|---|---|---|
| Sources/KSCrashRecordingCore/KSMachineContext.c:103-123 | When the crashed thread lies beyond the capacity, it is copied over slot `capacity-1` of the kernel's thread array. The loop that deallocates every port then walks that modified array. | Enumeration [1,2,3], capacity 2, crashed thread 3: the ports released are [1,3,3]. Port 2 is never released and port 3 is released twice. | Release every enumerated port exactly once. Place the crashed thread only in the context's own list. | medium; not executed | MachineContext.ReleasedPortsAsWritten (counterexample: MachineContext.ReleasedPortsAsWrittenMisses; all inputs: MachineContext.ReleasedPortsAsWrittenLosesPort) | MachineContext.FillThreadList |

## Left out

- Mach and pthread calls are inputs, not effects: `task_threads`, `thread_suspend`, `thread_resume`, `pthread_from_mach_thread_np`, `pthread_getname_np`, `ksthread_getQueueName`, `kscpu_getState` and `kscpu_i_fillState`. Per-thread suspend and resume failures are only logged in the source, so they do not affect the selection that is modelled.
- `mach_port_deallocate` and `vm_deallocate` appear only as the list of released ports in `KSMachineContext.c`. They are not modelled in `UpdateThreadList` (KSCrashCachedData.c:149-154). Nothing about port reference counts is modelled.
- Logging, `usleep` and `sleep` are left out. `sleep` appears only as the number of seconds requested.
- Concurrency is left out: the background worker thread, the `_Atomic` counter, and the race between the gate check and `freeze`. The worker is modelled one sequential cycle at a time. `SwapSteps` lists the six states the writer publishes at KSCrashCachedData.c:115-120. A concurrent reader loads the count and each array at different moments, so it can see combinations that are not among these six states.
- `calloc`, `strdup` and `free` are left out. Allocation failure is not modelled; the source would dereference NULL in that case. The 1000-byte name buffer is not modelled, so names are assumed to fit.
- `pthread_create` in `ksccd_init` is left out. Its failure is only logged.
- InitCursor and ApplyReset: a caller-supplied reset is modelled only by the state, frame and payload it leaves behind. Resets in other producers that touch anything else are not part of this model, and for them the model does not promise the reset state that `kssc_resetCursor` gives.
- Stack-overflow detection is an input boolean. It walks the machine-context cursor, and KSStackCursor_MachineContext.c is not part of this model.
- Symbolication (`kssymbolicator_symbolicate`) is left out. The symbolicate slot is a constant tag.
- The `memcpy` of the signal user context is modelled as taking the signal's register block whole. The layout of `ucontext` is not modelled.
- The capacity of `allThreads` is a parameter (`|allThreads|`, at least 1), because the header that fixes it is not part of this model.
- `ksmc_contextSize` and `ksmc_getThreadFromContext` are left out: one returns a C type size and the other a field. `ksmc_getThreadCount` and `ksmc_getThreadAtIndex` are plain accessors with no contract of their own.
- The `bool` results of `ksmc_getContextForThread` and `ksmc_getContextForSignal` are left out. Both always return true.
- IsCrashedContext, CanHaveCPUState and HasValidExceptionRegisters model `ksmc_isCrashedContext`, `ksmc_canHaveCPUState` and `ksmc_hasValidExceptionRegisters` (KSMachineContext.c:285-299). They are plain predicates over the context's flags with no contract of their own. They are the definitions that the `GetContextForThread` and `GetContextForSignal` contracts are stated in.
- InstructionAddress, StackPointer, FramePointer, LinkRegister and FaultAddress model `kscpu_instructionAddress`, `kscpu_stackPointer`, `kscpu_framePointer`, `kscpu_linkRegister` and `kscpu_faultAddress` (KSCPU_arm64.c:50-56, 139). They are plain field reads with no contract of their own. Their agreement with register indices 30 to 33 and with exception register 2 is stated by `RegisterValue`, `NamedRegisterPositions` and `ExceptionRegistersAgree`.
- GetAllThreads: a plain accessor with no contract of its own. What it returns after a refresh is stated by `LookupAfterRefresh`.
- `ksccd_setSearchQueueNames` is a plain field update. Its effect is stated by `BuildGeneration` and `LookupAfterRefresh`.
- RegisterValue: the source indexes `__x[regNumber]` for every regNumber <= 29. The model therefore assumes at least thirty general slots (`ValidState`). Darwin's header declares 29 slots, so index 29 reads past `__x` into `__fp` by layout. This behaviour is not modelled.
- RegisterValue and RegisterName: negative register numbers are unchecked in the source, so the model requires a number >= 0.
- ExceptionRegisterName: a negative number is unchecked in the source, so the model requires a number >= 0.
- SuspendEnvironment: when enumeration fails, the out-parameters are modelled as NULL (`None`) rather than as whatever the caller left in them.
- InitWithBacktrace: the model requires skip >= 0 and an array of at least `length` entries. The source reads `backtrace[depth + skip]` without checking either.

=== FILE: cached_data.dfy ===
/** The thread-metadata cache: a background-refreshed table of thread
    handles, thread names and dispatch-queue names, gated by a freeze
    counter. The refresh worker is modelled one cycle at a time; each
    operating-system observation of a thread is an input. */
module CachedData {
  import opened Common

  /** The process-wide cache state. The four arrays are NULL until the first
      refresh; `threadsCount` is the published count readers scan up to. */
  datatype Cache = Cache(
    pollingInterval: int,
    hasThreadStarted: bool,
    searchQueueNames: bool,
    semaphoreCount: int,
    machThreads: Option<seq<Thread>>,
    pThreads: Option<seq<Thread>>,
    threadNames: Option<seq<Option<string>>>,
    queueNames: Option<seq<Option<string>>>,
    threadsCount: int)

  const InitialCache := Cache(0, false, false, 0, None, None, None, None, 0)

  /** What the operating system reports for one enumerated thread: its
      kernel handle, its POSIX handle (0 when there is none), the outcome of
      the thread-name query (`None` when the call fails) and of the
      queue-name query (`None` when it reports no name). */
  datatype ThreadProbe = ThreadProbe(
    machThread: Thread,
    pthread: Thread,
    pthreadName: Option<string>,
    queueName: Option<string>)

  /** One generation of the four parallel arrays. */
  datatype Generation = Generation(
    machThreads: seq<Thread>,
    pThreads: seq<Thread>,
    threadNames: seq<Option<string>>,
    queueNames: seq<Option<string>>)

  // ---------------------------------------------------------------------
  // Freeze gate

  /** A refresh may run while the counter is not positive. */
  predicate RefreshAllowed(count: int) {
    count <= 0
  }

  /** `ksccd_freeze`: raises the counter; from a non-negative counter the
      gate is then engaged. */
  function Freeze(count: int): (r: int)
    ensures r > count
    ensures count >= 0 ==> !RefreshAllowed(r)
  {
    count + 1
  }

  /** Whether `ksccd_freeze` pauses to let an in-flight refresh finish. It
      pauses exactly when the gate was open on entry, so a refresh may be
      running; from a non-negative counter that is exactly the freeze that
      closes the gate. */
  function FreezeWaits(count: int): (r: bool)
    ensures r <==> RefreshAllowed(count)
    ensures count >= 0 ==> (r <==> RefreshAllowed(count) && !RefreshAllowed(Freeze(count)))
  {
    count <= 0
  }

  /** `ksccd_unfreeze`: lowers the counter, undoing the decrement when it
      would go below zero. */
  function Unfreeze(count: int): (r: int)
    ensures count >= 0 ==> r == (if count > 0 then count - 1 else 0)
    ensures count < 0 ==> r == count
    ensures count >= 0 ==> r >= 0
  {
    var lowered := count - 1;
    if lowered < 0 then lowered + 1 else lowered
  }

  datatype GateCall = FreezeCall | UnfreezeCall

  /** The counter after a sequence of freeze and unfreeze calls. */
  function ApplyGate(count: int, calls: seq<GateCall>): int
    decreases |calls|
  {
    if |calls| == 0 then count
    else
      var next := match calls[0] case FreezeCall => Freeze(count) case UnfreezeCall => Unfreeze(count);
      ApplyGate(next, calls[1..])
  }

  /** From a non-negative counter, no sequence of calls, however unbalanced,
      drives it below zero. */
  lemma {:induction false} GateNeverNegative(count: int, calls: seq<GateCall>)
    requires count >= 0
    ensures ApplyGate(count, calls) >= 0
    decreases |calls|
  {
    if |calls| > 0 {
      var next := match calls[0] case FreezeCall => Freeze(count) case UnfreezeCall => Unfreeze(count);
      GateNeverNegative(next, calls[1..]);
    }
  }

  /** A freeze immediately followed by an unfreeze restores the counter. */
  lemma FreezeThenUnfreezeRestores(count: int)
    requires count >= 0
    ensures Unfreeze(Freeze(count)) == count
    ensures ApplyGate(count, [FreezeCall, UnfreezeCall]) == count
  {
    assert [FreezeCall, UnfreezeCall][1..] == [UnfreezeCall];
  }

  // ---------------------------------------------------------------------
  // Initialisation and settings

  /** `ksccd_init`: the first call records the interval and starts the
      worker; later calls change nothing. */
  function Init(c: Cache, pollingIntervalInSeconds: int): (r: Cache)
    ensures r.hasThreadStarted
    ensures c.hasThreadStarted ==> r == c
    ensures !c.hasThreadStarted ==> r == c.(hasThreadStarted := true, pollingInterval := pollingIntervalInSeconds)
  {
    if c.hasThreadStarted then c
    else c.(hasThreadStarted := true, pollingInterval := pollingIntervalInSeconds)
  }

  /** Initialising again, with any interval, leaves the state of the first
      initialisation untouched. */
  lemma InitIsIdempotent(c: Cache, first: int, later: int)
    ensures Init(Init(c, first), later) == Init(c, first)
    ensures Init(Init(c, first), later).pollingInterval == Init(c, first).pollingInterval
  {
  }

  function SetSearchQueueNames(c: Cache, searchQueueNames: bool): Cache {
    c.(searchQueueNames := searchQueueNames)
  }

  // ---------------------------------------------------------------------
  // Refresh

  /** The cached name of a thread: present only for a thread with a POSIX
      handle whose name query succeeded with a non-empty name. */
  function ThreadNameOf(p: ThreadProbe): Option<string> {
    if p.pthread != 0 && p.pthreadName.Some? && |p.pthreadName.value| > 0 then p.pthreadName else None
  }

  /** The cached queue name: present only when queue-name search is on and
      the query reported a non-empty name. */
  function QueueNameOf(p: ThreadProbe, searchQueueNames: bool): Option<string> {
    if searchQueueNames && p.queueName.Some? && |p.queueName.value| > 0 then p.queueName else None
  }

  /** The new generation built from one enumeration. */
  function BuildGeneration(probes: seq<ThreadProbe>, searchQueueNames: bool): (g: Generation)
    ensures |g.machThreads| == |g.pThreads| == |g.threadNames| == |g.queueNames| == |probes|
    ensures forall i :: 0 <= i < |probes| ==>
              && g.machThreads[i] == probes[i].machThread
              && g.pThreads[i] == probes[i].pthread
              && g.threadNames[i] == ThreadNameOf(probes[i])
              && g.queueNames[i] == QueueNameOf(probes[i], searchQueueNames)
    ensures forall i :: 0 <= i < |probes| && probes[i].pthread == 0 ==> g.threadNames[i] == None
    ensures forall i :: 0 <= i < |probes| && g.threadNames[i].Some? ==> |g.threadNames[i].value| > 0
    ensures !searchQueueNames ==> forall i :: 0 <= i < |probes| ==> g.queueNames[i] == None
  {
    Generation(
      seq(|probes|, i requires 0 <= i < |probes| => probes[i].machThread),
      seq(|probes|, i requires 0 <= i < |probes| => probes[i].pthread),
      seq(|probes|, i requires 0 <= i < |probes| => ThreadNameOf(probes[i])),
      seq(|probes|, i requires 0 <= i < |probes| => QueueNameOf(probes[i], searchQueueNames)))
  }

  /** A reader scanning `i < threadsCount` over any installed array stays
      in bounds: the count never exceeds the length of an installed array
      (a NULL array counts as empty). */
  predicate Readable(c: Cache) {
    && 0 <= c.threadsCount
    && c.threadsCount <= Len(c.machThreads)
    && c.threadsCount <= Len(c.pThreads)
    && c.threadsCount <= Len(c.threadNames)
    && c.threadsCount <= Len(c.queueNames)
  }

  /** Between refreshes: either nothing is installed yet, or all four arrays
      are installed with exactly `threadsCount` entries. */
  predicate Consistent(c: Cache) {
    || (c.machThreads.None? && c.pThreads.None? && c.threadNames.None? && c.queueNames.None? && c.threadsCount == 0)
    || (&& c.machThreads.Some? && c.pThreads.Some? && c.threadNames.Some? && c.queueNames.Some?
        && |c.machThreads.value| == |c.pThreads.value| == |c.threadNames.value| == |c.queueNames.value| == c.threadsCount)
  }

  /** The six states the writer publishes while installing a new
      generation: the count is first lowered to the smaller of the two
      generations, the four arrays are swapped one by one, and only then is
      the new count published. */
  function SwapSteps(c: Cache, g: Generation): (steps: seq<Cache>)
    requires |g.machThreads| == |g.pThreads| == |g.threadNames| == |g.queueNames|
    ensures |steps| == 6
    ensures steps[0].threadsCount == Min(c.threadsCount, |g.machThreads|)
    ensures Readable(c) ==> forall i :: 0 <= i < |steps| ==> Readable(steps[i])
    ensures steps[5] == c.(
              machThreads := Some(g.machThreads), pThreads := Some(g.pThreads),
              threadNames := Some(g.threadNames), queueNames := Some(g.queueNames),
              threadsCount := |g.machThreads|)
  {
    var n := |g.machThreads|;
    var lowered := c.(threadsCount := Min(c.threadsCount, n));
    var s1 := lowered.(machThreads := Some(g.machThreads));
    var s2 := s1.(pThreads := Some(g.pThreads));
    var s3 := s2.(threadNames := Some(g.threadNames));
    var s4 := s3.(queueNames := Some(g.queueNames));
    var s5 := s4.(threadsCount := n);
    [lowered, s1, s2, s3, s4, s5]
  }

  /** `updateThreadList`: a failed enumeration leaves the cache as it was;
      otherwise a new generation describing the enumerated threads, in
      order, is installed and nothing else changes. */
  function UpdateThreadList(c: Cache, enumeration: Option<seq<ThreadProbe>>): (r: Cache)
    ensures enumeration.None? ==> r == c
    ensures enumeration.Some? ==>
              var g := BuildGeneration(enumeration.value, c.searchQueueNames);
              r == c.(machThreads := Some(g.machThreads), pThreads := Some(g.pThreads),
                       threadNames := Some(g.threadNames), queueNames := Some(g.queueNames),
                       threadsCount := |enumeration.value|)
  {
    match enumeration
    case None => c
    case Some(probes) =>
      var g := BuildGeneration(probes, c.searchQueueNames);
      SwapSteps(c, g)[5]
  }

  /** A refresh keeps the four arrays in step. Since the count read before
      a refresh is the length of the generation being replaced, the loop that
      frees the replaced names visits exactly that generation's entries. */
  lemma RefreshKeepsConsistent(c: Cache, enumeration: Option<seq<ThreadProbe>>)
    requires Consistent(c)
    ensures Consistent(UpdateThreadList(c, enumeration))
    ensures Readable(c)
    ensures c.threadNames.Some? ==> c.threadsCount == |c.threadNames.value|
    ensures c.queueNames.Some? ==> c.threadsCount == |c.queueNames.value|
  {
  }

  // ---------------------------------------------------------------------
  // Background worker

  /** Number of initial cycles that poll after one second. */
  const QuickPolls := 4

  /** The worker between cycles: the cache and the remaining quick polls. */
  datatype Monitor = Monitor(cache: Cache, quickPollCount: int)

  /** One cycle: whether a refresh ran, and how long the worker then sleeps. */
  datatype Cycle = Cycle(monitor: Monitor, refreshed: bool, sleepSeconds: nat)

  /** The configured interval passed to `sleep`, an `unsigned` conversion. */
  function UnsignedSeconds(seconds: int): nat {
    seconds % 0x1_0000_0000
  }

  /** One turn of `monitorCachedData`'s loop. */
  function MonitorCycle(m: Monitor, enumeration: Option<seq<ThreadProbe>>): (r: Cycle)
    ensures r.refreshed <==> RefreshAllowed(m.cache.semaphoreCount)
    ensures r.monitor.cache == (if r.refreshed then UpdateThreadList(m.cache, enumeration) else m.cache)
    ensures r.monitor.cache.pollingInterval == m.cache.pollingInterval
    ensures r.monitor.cache.semaphoreCount == m.cache.semaphoreCount
  {
    var refreshed := m.cache.semaphoreCount <= 0;
    var cache := if refreshed then UpdateThreadList(m.cache, enumeration) else m.cache;
    var interval := UnsignedSeconds(m.cache.pollingInterval);
    if m.quickPollCount > 0 then Cycle(Monitor(cache, m.quickPollCount - 1), refreshed, 1)
    else Cycle(Monitor(cache, m.quickPollCount), refreshed, interval)
  }

  /** The sleep lengths of consecutive cycles, one enumeration per cycle. */
  function Sleeps(m: Monitor, enumerations: seq<Option<seq<ThreadProbe>>>): seq<nat>
    decreases |enumerations|
  {
    if |enumerations| == 0 then []
    else
      var cycle := MonitorCycle(m, enumerations[0]);
      [cycle.sleepSeconds] + Sleeps(cycle.monitor, enumerations[1..])
  }

  /** With `q` quick polls left, the next `q` cycles sleep one second and the
      later ones the configured interval, whether or not they refreshed. */
  lemma {:induction false} SleepsFollowSchedule(m: Monitor, enumerations: seq<Option<seq<ThreadProbe>>>)
    requires m.quickPollCount >= 0
    ensures |Sleeps(m, enumerations)| == |enumerations|
    ensures forall k :: 0 <= k < |enumerations| ==>
              Sleeps(m, enumerations)[k] ==
                (if k < m.quickPollCount then 1 else UnsignedSeconds(m.cache.pollingInterval))
    decreases |enumerations|
  {
    if |enumerations| > 0 {
      var cycle := MonitorCycle(m, enumerations[0]);
      SleepsFollowSchedule(cycle.monitor, enumerations[1..]);
    }
  }

  /** The worker's schedule from start: cycles 0 to 3 sleep one second,
      later ones the configured interval. */
  lemma PollSchedule(c: Cache, enumerations: seq<Option<seq<ThreadProbe>>>)
    ensures |Sleeps(Monitor(c, QuickPolls), enumerations)| == |enumerations|
    ensures forall k :: 0 <= k < |enumerations| ==>
              Sleeps(Monitor(c, QuickPolls), enumerations)[k] ==
                (if k < 4 then 1 else UnsignedSeconds(c.pollingInterval))
  {
    SleepsFollowSchedule(Monitor(c, QuickPolls), enumerations);
  }

  // ---------------------------------------------------------------------
  // Lookups

  /** `ksccd_getAllThreads`: the kernel handles and the published count. */
  datatype AllThreads = AllThreads(threads: Option<seq<Thread>>, count: int)

  function GetAllThreads(c: Cache): AllThreads {
    AllThreads(c.machThreads, c.threadsCount)
  }

  /** `i` is the first index below `count` whose handle is `thread`. */
  predicate FirstMatch(machs: seq<Thread>, count: int, i: int, thread: Thread) {
    && 0 <= i < count && i < |machs| && machs[i] == thread
    && forall j :: 0 <= j < i ==> machs[j] != thread
  }

  /** The entry of `names` at the first index below the count whose kernel
      handle is `thread`; NULL when `names` is NULL or nothing matches. */
  function LookupName(c: Cache, names: Option<seq<Option<string>>>, thread: Thread): (r: Option<string>)
    requires Readable(c) && c.threadsCount <= Len(names)
    ensures names.None? ==> r == None
    ensures r.Some? ==>
              names.Some? &&
              exists i :: FirstMatch(c.machThreads.GetOr([]), c.threadsCount, i, thread) && names.value[i] == r
    ensures names.Some? ==>
              forall i :: FirstMatch(c.machThreads.GetOr([]), c.threadsCount, i, thread) ==> names.value[i] == r
    ensures (forall i :: !FirstMatch(c.machThreads.GetOr([]), c.threadsCount, i, thread)) ==> r == None
  {
    match names
    case None => None
    case Some(ns) =>
      var machs := c.machThreads.GetOr([]);
      match FirstIndex(machs, c.threadsCount, thread)
      case Some(i) =>
        assert FirstMatch(machs, c.threadsCount, i, thread);
        ns[i]
      case None => None
  }

  /** `ksccd_getThreadName`. */
  function GetThreadName(c: Cache, thread: Thread): (r: Option<string>)
    requires Readable(c)
    ensures c.threadNames.None? ==> r == None
    ensures c.threadNames.Some? ==>
              forall i :: FirstMatch(c.machThreads.GetOr([]), c.threadsCount, i, thread) ==> c.threadNames.value[i] == r
    ensures (forall i :: !FirstMatch(c.machThreads.GetOr([]), c.threadsCount, i, thread)) ==> r == None
  {
    LookupName(c, c.threadNames, thread)
  }

  /** `ksccd_getQueueName`. */
  function GetQueueName(c: Cache, thread: Thread): (r: Option<string>)
    requires Readable(c)
    ensures c.queueNames.None? ==> r == None
    ensures c.queueNames.Some? ==>
              forall i :: FirstMatch(c.machThreads.GetOr([]), c.threadsCount, i, thread) ==> c.queueNames.value[i] == r
    ensures (forall i :: !FirstMatch(c.machThreads.GetOr([]), c.threadsCount, i, thread)) ==> r == None
  {
    LookupName(c, c.queueNames, thread)
  }

  /** After a successful refresh, the lookups answer from the new
      generation: the name and queue name of the first enumerated thread with
      that handle, NULL for a handle not enumerated, and the handle list is
      the enumeration with its length as count. */
  lemma LookupAfterRefresh(c: Cache, probes: seq<ThreadProbe>, thread: Thread, i: nat)
    requires i < |probes| && probes[i].machThread == thread
    requires forall j :: 0 <= j < i ==> probes[j].machThread != thread
    ensures Readable(UpdateThreadList(c, Some(probes)))
    ensures GetThreadName(UpdateThreadList(c, Some(probes)), thread) == ThreadNameOf(probes[i])
    ensures GetQueueName(UpdateThreadList(c, Some(probes)), thread) == QueueNameOf(probes[i], c.searchQueueNames)
    ensures GetAllThreads(UpdateThreadList(c, Some(probes))).count == |probes|
    ensures GetAllThreads(UpdateThreadList(c, Some(probes))).threads.Some?
    ensures forall j :: 0 <= j < |probes| ==> GetAllThreads(UpdateThreadList(c, Some(probes))).threads.value[j] == probes[j].machThread
  {
    var r := UpdateThreadList(c, Some(probes));
    assert r.machThreads.value[i] == thread;
  }

  /** A handle that was not enumerated has no name after a refresh. */
  lemma UnknownThreadHasNoName(c: Cache, probes: seq<ThreadProbe>, thread: Thread)
    requires forall j :: 0 <= j < |probes| ==> probes[j].machThread != thread
    ensures GetThreadName(UpdateThreadList(c, Some(probes)), thread) == None
    ensures GetQueueName(UpdateThreadList(c, Some(probes)), thread) == None
  {
    var r := UpdateThreadList(c, Some(probes));
    assert forall j :: 0 <= j < |probes| ==> r.machThreads.value[j] != thread;
  }
}

=== FILE: common.dfy ===
/** Types shared by every part of the crash-time capture core. */
module Common {

  /** A nullable value: `None` stands for the source's NULL pointer or "absent". */
  datatype Option<+T> = None | Some(value: T) {

    /** Returns the wrapped value, or `default` when absent. */
    function GetOr(default: T): T {
      match this
      case Some(v) => v
      case None => default
    }
  }

  /** A kernel thread handle (`KSThread`, a `uintptr_t`); only ever compared for equality. */
  type Thread = nat

  /** A 64-bit machine word: register contents and return addresses. */
  type Word = bv64

  /** The smaller of two integers. */
  function Min(a: int, b: int): int {
    if a < b then a else b
  }

  /** Length of an array that may be NULL; a NULL array holds nothing. */
  function Len<T>(a: Option<seq<T>>): nat {
    match a
    case Some(s) => |s|
    case None => 0
  }

  /** The linear scan `for (i = 0; i < count; i++) if (s[i] == x) return i;`
      shared by the thread and name lookups: the least index below `count`
      holding `x`, or `None`. A negative `count` scans nothing. */
  function FirstIndex<T(==)>(s: seq<T>, count: int, x: T): (r: Option<nat>)
    requires count <= |s|
    ensures r.Some? ==> r.value < count && s[r.value] == x
    ensures r.Some? ==> forall j :: 0 <= j < r.value ==> s[j] != x
    ensures r.None? <==> forall j :: 0 <= j < count ==> s[j] != x
  {
    FirstIndexFrom(s, count, x, 0)
  }

  function FirstIndexFrom<T(==)>(s: seq<T>, count: int, x: T, i: nat): (r: Option<nat>)
    requires count <= |s|
    requires forall j :: 0 <= j < i && j < count ==> s[j] != x
    ensures r.Some? ==> i <= r.value < count && s[r.value] == x
    ensures r.Some? ==> forall j :: 0 <= j < r.value ==> s[j] != x
    ensures r.None? <==> forall j :: 0 <= j < count ==> s[j] != x
    decreases count - i
  {
    if count <= i then None
    else if s[i] == x then Some(i)
    else FirstIndexFrom(s, count, x, i + 1)
  }
}

=== FILE: cpu_arm64.dfy ===
/** The arm64 register accessor: the uniform query surface over the raw
    register block (`__ss` thread state, `__es` exception state) of an arm64
    machine context. */
module CpuArm64 {
  import opened Common

  /** The general thread state. `x` holds x0..x28 and, by the assumption
      described in `ValidState`, a thirtieth slot read as x29. */
  datatype ThreadState = ThreadState(x: seq<Word>, fp: Word, lr: Word, sp: Word, pc: Word, cpsr: bv32)

  /** The exception state: exception class, syndrome register, fault address. */
  datatype ExceptionState = ExceptionState(exception: bv32, esr: bv32, far: Word)

  /** The raw register block of one machine context. */
  datatype MContext = MContext(ss: ThreadState, es: ExceptionState)

  /** The general-register value map reads `x[i]` for every `i <= 29`, so the
      model assumes at least thirty general slots. */
  const GeneralSlots := 30

  predicate ValidState(m: MContext) {
    |m.ss.x| >= GeneralSlots
  }

  /** The all-zero register block, as left by zeroing a context. */
  const ZeroMContext := MContext(ThreadState(seq(GeneralSlots, _ => 0), 0, 0, 0, 0, 0), ExceptionState(0, 0, 0))

  /** Pointer-authentication stripping mask: the low 36 bits are the address. */
  const PacStrippingMask: bv64 := 0x0000000fffffffff

  const RegisterNames: seq<string> := [
    "x0", "x1", "x2", "x3", "x4", "x5", "x6", "x7", "x8",
    "x9", "x10", "x11", "x12", "x13", "x14", "x15", "x16", "x17",
    "x18", "x19", "x20", "x21", "x22", "x23", "x24", "x25", "x26",
    "x27", "x28", "x29", "fp", "lr", "sp", "pc", "cpsr"
  ]

  const ExceptionRegisterNames: seq<string> := ["exception", "esr", "far"]

  /** Decimal spelling of a natural number, the reference for the names of
      the general registers. */
  function Decimal(n: nat): string
    decreases n
  {
    var digit := ['0' + (n % 10) as char];
    if n < 10 then digit else Decimal(n / 10) + digit
  }

  function InstructionAddress(m: MContext): Word { m.ss.pc }

  function StackPointer(m: MContext): Word { m.ss.sp }

  function FramePointer(m: MContext): Word { m.ss.fp }

  function LinkRegister(m: MContext): Word { m.ss.lr }

  function FaultAddress(m: MContext): Word { m.es.far }

  /** Number of named general registers: one per name in the table. */
  function NumRegisters(): (r: int)
    ensures r == |RegisterNames| == 35
  {
    |RegisterNames|
  }

  /** The name of register `regNumber`, or NULL past the table. Negative
      numbers are not checked by the accessor, so the model excludes them. */
  function RegisterName(regNumber: int): (r: Option<string>)
    requires regNumber >= 0
    ensures r.Some? <==> regNumber < NumRegisters()
    ensures regNumber < 30 ==> r == Some("x" + Decimal(regNumber))
    ensures 30 <= regNumber < 35 ==> r == Some(["fp", "lr", "sp", "pc", "cpsr"][regNumber - 30])
  {
    GeneralNamesAreDecimal();
    if regNumber < NumRegisters() then Some(RegisterNames[regNumber]) else None
  }

  /** The first thirty names are "x" followed by the register number. */
  lemma GeneralNamesAreDecimal()
    ensures forall i :: 0 <= i < 30 ==> RegisterNames[i] == "x" + Decimal(i)
  {
    assert Decimal(10) == "10" by { assert Decimal(1) == "1"; }
    forall i | 10 <= i < 30
      ensures RegisterNames[i] == "x" + Decimal(i)
    {
      assert Decimal(i) == Decimal(i / 10) + ['0' + (i % 10) as char];
    }
  }

  /** The value of register `regNumber`; 0 for a number with no register. */
  function RegisterValue(m: MContext, regNumber: int): (r: Word)
    requires ValidState(m)
    requires regNumber >= 0
    ensures regNumber < 30 ==> r == m.ss.x[regNumber]
    ensures regNumber == 30 ==> r == FramePointer(m)
    ensures regNumber == 31 ==> r == LinkRegister(m)
    ensures regNumber == 32 ==> r == StackPointer(m)
    ensures regNumber == 33 ==> r == InstructionAddress(m)
    ensures regNumber == 34 ==> r == m.ss.cpsr as bv64
    ensures regNumber >= NumRegisters() ==> r == 0
  {
    if regNumber <= 29 then m.ss.x[regNumber]
    else if regNumber == 30 then m.ss.fp
    else if regNumber == 31 then m.ss.lr
    else if regNumber == 32 then m.ss.sp
    else if regNumber == 33 then m.ss.pc
    else if regNumber == 34 then m.ss.cpsr as bv64
    else 0
  }

  /** The value listed under each register name is the register of that
      name: `x<i>` reads general slot i, and the named accessors agree with
      the indexed reading. */
  lemma NamedRegistersAgree(m: MContext, i: nat)
    requires ValidState(m)
    requires i < NumRegisters()
    ensures RegisterName(i) == Some("x" + Decimal(i)) <==> i < 30
    ensures i < 30 ==> RegisterValue(m, i) == m.ss.x[i]
    ensures RegisterName(i) == Some("fp") ==> RegisterValue(m, i) == FramePointer(m)
    ensures RegisterName(i) == Some("lr") ==> RegisterValue(m, i) == LinkRegister(m)
    ensures RegisterName(i) == Some("sp") ==> RegisterValue(m, i) == StackPointer(m)
    ensures RegisterName(i) == Some("pc") ==> RegisterValue(m, i) == InstructionAddress(m)
    ensures RegisterName(i) == Some("cpsr") ==> RegisterValue(m, i) == m.ss.cpsr as bv64
  {
    if i >= 30 {
      assert RegisterNames[i] == ["fp", "lr", "sp", "pc", "cpsr"][i - 30];
      assert "x" + Decimal(i) != RegisterNames[i] by {
        assert ("x" + Decimal(i))[0] == 'x';
      }
    }
  }

  /** The special registers sit at indices 30 to 34, each reading the
      register its name denotes. */
  lemma NamedRegisterPositions(m: MContext)
    requires ValidState(m)
    ensures RegisterName(30) == Some("fp") && RegisterValue(m, 30) == FramePointer(m)
    ensures RegisterName(31) == Some("lr") && RegisterValue(m, 31) == LinkRegister(m)
    ensures RegisterName(32) == Some("sp") && RegisterValue(m, 32) == StackPointer(m)
    ensures RegisterName(33) == Some("pc") && RegisterValue(m, 33) == InstructionAddress(m)
    ensures RegisterName(34) == Some("cpsr") && RegisterValue(m, 34) == m.ss.cpsr as bv64
  {
  }

  /** Number of exception registers: one per name in the table. */
  function NumExceptionRegisters(): (r: int)
    ensures r == |ExceptionRegisterNames| == 3
  {
    |ExceptionRegisterNames|
  }

  function ExceptionRegisterName(regNumber: int): (r: Option<string>)
    requires regNumber >= 0
    ensures r.Some? <==> regNumber < NumExceptionRegisters()
    ensures r.Some? ==> r.value in ExceptionRegisterNames
    ensures regNumber < 3 ==> r == Some(["exception", "esr", "far"][regNumber])
  {
    if regNumber < NumExceptionRegisters() then Some(ExceptionRegisterNames[regNumber]) else None
  }

  /** The exception register values; any number other than 0, 1, 2 reads 0. */
  function ExceptionRegisterValue(m: MContext, regNumber: int): (r: Word)
    ensures regNumber == 0 ==> r == m.es.exception as bv64
    ensures regNumber == 1 ==> r == m.es.esr as bv64
    ensures regNumber == 2 ==> r == FaultAddress(m)
    ensures !(0 <= regNumber < NumExceptionRegisters()) ==> r == 0
  {
    if regNumber == 0 then m.es.exception as bv64
    else if regNumber == 1 then m.es.esr as bv64
    else if regNumber == 2 then m.es.far
    else 0
  }

  /** Exception register names and values line up, and the fault address is
      the register named "far". */
  lemma ExceptionRegistersAgree(m: MContext, i: nat)
    ensures ExceptionRegisterName(i) == Some("exception") ==> ExceptionRegisterValue(m, i) == m.es.exception as bv64
    ensures ExceptionRegisterName(i) == Some("esr") ==> ExceptionRegisterValue(m, i) == m.es.esr as bv64
    ensures ExceptionRegisterName(i) == Some("far") ==> ExceptionRegisterValue(m, i) == FaultAddress(m)
    ensures FaultAddress(m) == ExceptionRegisterValue(m, 2)
    ensures ExceptionRegisterName(0) == Some("exception") && ExceptionRegisterValue(m, 0) == m.es.exception as bv64
    ensures ExceptionRegisterName(1) == Some("esr") && ExceptionRegisterValue(m, 1) == m.es.esr as bv64
    ensures ExceptionRegisterName(2) == Some("far") && ExceptionRegisterValue(m, 2) == FaultAddress(m)
  {
    if i < 3 {
      assert ExceptionRegisterNames[0] != ExceptionRegisterNames[1];
      assert ExceptionRegisterNames[0] != ExceptionRegisterNames[2];
      assert ExceptionRegisterNames[1] != ExceptionRegisterNames[2];
    }
  }

  /** The stack grows toward lower addresses, one unit per step. */
  function StackGrowDirection(): (r: int)
    ensures r < 0 && r * r == 1
  {
    -1
  }

  /** Strips the pointer-authentication bits from a return address. */
  function NormaliseInstructionPointer(ip: Word): (r: Word)
    ensures r == ip % 0x10_0000_0000
  {
    ip & PacStrippingMask
  }

  /** A normalised address fits in 36 bits, never exceeds the raw address,
      and normalising it again changes nothing. */
  lemma NormaliseBounds(ip: Word)
    ensures NormaliseInstructionPointer(ip) < 0x10_0000_0000
    ensures NormaliseInstructionPointer(ip) <= ip
    ensures NormaliseInstructionPointer(NormaliseInstructionPointer(ip)) == NormaliseInstructionPointer(ip)
  {
  }
}

=== FILE: machine_context.dfy ===
/** The machine context: a per-thread snapshot of registers and, for a
    crashed context, of the process thread list; plus the reserved-thread set
    and the suspend/resume selection that freezes every other thread while a
    crash is captured. Operating-system calls are inputs: an enumeration is
    `Some(threads)` when `task_threads` succeeds and `None` when it fails. */
module MachineContext {
  import opened Common
  import opened CpuArm64

  /** Capacity of the reserved-thread array. */
  const ReservedCapacity := 10

  /** Largest index an append may write. */
  const ReservedMaxIndex := ReservedCapacity - 1

  /** The reserved threads `g_reservedThreads[0 .. g_reservedThreadsCount)`. */
  datatype ReservedThreads = ReservedThreads(threads: seq<Thread>)

  const NoReservedThreads := ReservedThreads([])

  /** A captured context. `allThreads` is the whole fixed-capacity array;
      its first `threadCount` entries are meaningful. */
  datatype Context = Context(
    thisThread: Thread,
    allThreads: seq<Thread>,
    threadCount: int,
    isCrashedContext: bool,
    isCurrentThread: bool,
    isStackOverflow: bool,
    isSignalContext: bool,
    machineContext: MContext)

  /** What the operating system reports while one thread's context is
      captured: its registers, the verdict of the stack-overflow walk, and
      the process thread enumeration. */
  datatype Probe = Probe(registers: MContext, stackOverflow: bool, enumeration: Option<seq<Thread>>)

  /** A thread list capture: the updated context and the thread ports handed
      back to the kernel afterwards. */
  datatype ThreadListResult = ThreadListResult(context: Context, released: seq<Thread>)

  // ---------------------------------------------------------------------
  // Reserved threads

  /** Appends `thread` while fewer than ten are reserved; a full list is
      left as it is. */
  function AddReservedThread(r: ReservedThreads, thread: Thread): (r': ReservedThreads)
    ensures |r.threads| < ReservedCapacity ==> r'.threads == r.threads + [thread]
    ensures |r.threads| >= ReservedCapacity ==> r' == r
    ensures |r'.threads| <= ReservedCapacity || r' == r
  {
    var nextIndex := |r.threads|;
    if nextIndex > ReservedMaxIndex then r else ReservedThreads(r.threads + [thread])
  }

  /** The reserved list after appending every thread of `ts` in turn. */
  function AddAll(r: ReservedThreads, ts: seq<Thread>): ReservedThreads
    decreases |ts|
  {
    if |ts| == 0 then r else AddAll(AddReservedThread(r, ts[0]), ts[1..])
  }

  /** Any run of additions keeps the first ten requests, in order, and
      drops the rest: the count never exceeds ten. */
  lemma {:induction false} AddAllKeepsFirstTen(r: ReservedThreads, ts: seq<Thread>)
    requires |r.threads| <= ReservedCapacity
    ensures AddAll(r, ts).threads == (r.threads + ts)[..Min(|r.threads| + |ts|, ReservedCapacity)]
    ensures |AddAll(r, ts).threads| <= ReservedCapacity
    decreases |ts|
  {
    if |ts| > 0 {
      var r1 := AddReservedThread(r, ts[0]);
      AddAllKeepsFirstTen(r1, ts[1..]);
      if |r.threads| < ReservedCapacity {
        assert r1.threads + ts[1..] == r.threads + ts;
      } else {
        assert (r.threads + ts)[..ReservedCapacity] == r.threads;
        assert (r1.threads + ts[1..])[..ReservedCapacity] == r.threads;
      }
    }
  }

  /** `isThreadInList`: whether `thread` occurs among the first
      `listCount` entries of `list`. */
  method IsThreadInList(thread: Thread, list: seq<Thread>, listCount: int) returns (found: bool)
    requires listCount <= |list|
    ensures found <==> exists i :: 0 <= i < listCount && list[i] == thread
  {
    var i := 0;
    while i < listCount
      invariant 0 <= i <= |list|
      invariant forall j :: 0 <= j < i ==> list[j] != thread
    {
      if list[i] == thread {
        return true;
      }
      i := i + 1;
    }
    return false;
  }

  // ---------------------------------------------------------------------
  // Suspend and resume

  /** A thread the whole-process freeze leaves alone: the calling thread or
      a reserved one. */
  predicate Excluded(t: Thread, self: Thread, reserved: ReservedThreads) {
    t == self || t in reserved.threads
  }

  /** The enumerated threads that are neither the caller nor reserved, in
      enumeration order. */
  function Selected(ts: seq<Thread>, self: Thread, reserved: ReservedThreads): seq<Thread>
    decreases |ts|
  {
    if |ts| == 0 then []
    else
      var last := ts[|ts| - 1];
      Selected(ts[..|ts| - 1], self, reserved) + (if Excluded(last, self, reserved) then [] else [last])
  }

  /** A thread is selected exactly when it was enumerated and is neither the
      caller nor reserved. */
  lemma {:induction false} SelectedMembers(ts: seq<Thread>, self: Thread, reserved: ReservedThreads)
    ensures forall t :: t in Selected(ts, self, reserved) <==> t in ts && !Excluded(t, self, reserved)
    decreases |ts|
  {
    if |ts| > 0 {
      SelectedMembers(ts[..|ts| - 1], self, reserved);
      assert ts == ts[..|ts| - 1] + [ts[|ts| - 1]];
    }
  }

  /** The threads a suspend pass issues `thread_suspend` for; none when the
      enumeration fails. */
  function SuspendSet(enumeration: Option<seq<Thread>>, self: Thread, reserved: ReservedThreads): seq<Thread> {
    match enumeration
    case None => []
    case Some(ts) => Selected(ts, self, reserved)
  }

  /** The threads a resume pass issues `thread_resume` for; none for a NULL
      list or a zero count. */
  function ResumeSet(threads: Option<seq<Thread>>, self: Thread, reserved: ReservedThreads): seq<Thread> {
    if threads.None? || |threads.value| == 0 then [] else Selected(threads.value, self, reserved)
  }

  /** `ksmc_suspendEnvironment`: enumerates the threads and suspends every
      one that is neither the caller nor reserved. Per-thread failures are
      logged and do not change the selection. When the enumeration fails the
      out-parameters keep their NULL initial value. */
  method SuspendEnvironment(enumeration: Option<seq<Thread>>, self: Thread, reserved: ReservedThreads)
    returns (threads: Option<seq<Thread>>, suspended: seq<Thread>)
    ensures threads == enumeration
    ensures suspended == SuspendSet(enumeration, self, reserved)
    ensures forall t :: t in suspended <==>
              enumeration.Some? && t in enumeration.value && t != self && t !in reserved.threads
  {
    threads := enumeration;
    suspended := [];
    if enumeration.None? {
      return;
    }
    var ts := enumeration.value;
    var i := 0;
    while i < |ts|
      invariant 0 <= i <= |ts|
      invariant suspended == Selected(ts[..i], self, reserved)
    {
      var thread := ts[i];
      var reservedHit := IsThreadInList(thread, reserved.threads, |reserved.threads|);
      if thread != self && !reservedHit {
        suspended := suspended + [thread];
      }
      assert ts[..i + 1][..i] == ts[..i];
      i := i + 1;
    }
    assert ts[..i] == ts;
    SelectedMembers(ts, self, reserved);
  }

  /** `ksmc_resumeEnvironment`: with a NULL list or a zero count, nothing
      happens; otherwise the same selection is resumed and every enumerated
      thread port is released. */
  method ResumeEnvironment(threads: Option<seq<Thread>>, self: Thread, reserved: ReservedThreads)
    returns (resumed: seq<Thread>, released: seq<Thread>)
    ensures resumed == ResumeSet(threads, self, reserved)
    ensures threads.None? || |threads.value| == 0 ==> resumed == [] && released == []
    ensures threads.Some? && |threads.value| > 0 ==> released == threads.value
    ensures forall t :: t in resumed ==> threads.Some? && t in threads.value && !Excluded(t, self, reserved)
  {
    resumed := [];
    released := [];
    if threads.None? || |threads.value| == 0 {
      return;
    }
    var ts := threads.value;
    var i := 0;
    while i < |ts|
      invariant 0 <= i <= |ts|
      invariant resumed == Selected(ts[..i], self, reserved)
    {
      var thread := ts[i];
      var reservedHit := IsThreadInList(thread, reserved.threads, |reserved.threads|);
      if thread != self && !reservedHit {
        resumed := resumed + [thread];
      }
      assert ts[..i + 1][..i] == ts[..i];
      i := i + 1;
    }
    assert ts[..i] == ts;
    SelectedMembers(ts, self, reserved);
    released := ts;
  }

  /** Resuming with the list a suspend pass returned, from the same thread
      and with the same reserved set, resumes exactly the suspended threads,
      in the same order. */
  lemma ResumeMatchesSuspend(enumeration: Option<seq<Thread>>, self: Thread, reserved: ReservedThreads)
    ensures ResumeSet(enumeration, self, reserved) == SuspendSet(enumeration, self, reserved)
  {
  }

  // ---------------------------------------------------------------------
  // Thread list capture

  /** The thread list stored in a crashed context: the enumeration when it
      fits; otherwise its first `capacity` entries, except that the context's
      own thread, when it lies beyond the capacity, takes the last slot. */
  function ThreadListFor(threads: seq<Thread>, thisThread: Thread, capacity: nat): (r: seq<Thread>)
    requires capacity >= 1
    ensures |threads| <= capacity ==> r == threads
    ensures |threads| > capacity ==> |r| == capacity && r[..capacity - 1] == threads[..capacity - 1]
    ensures thisThread in threads ==> thisThread in r
    ensures forall t :: t in r ==> t in threads
    ensures |threads| > capacity && thisThread in threads[capacity..] ==> r[capacity - 1] == thisThread
    ensures |threads| > capacity && thisThread !in threads[capacity..] ==> r == threads[..capacity]
  {
    if |threads| <= capacity then threads
    else if thisThread in threads[capacity..] then threads[..capacity - 1] + [thisThread]
    else
      assert threads == threads[..capacity] + threads[capacity..];
      threads[..capacity]
  }

  /** `getThreadList` as written: the crashed thread is copied over slot
      `capacity - 1` of the kernel's own array, and the release loop then
      walks that modified array. */
  function ReleasedPortsAsWritten(threads: seq<Thread>, thisThread: Thread, capacity: nat): (r: seq<Thread>)
    requires capacity >= 1
    ensures |r| == |threads|
    ensures |threads| > capacity && thisThread in threads[capacity..] ==> r[capacity - 1] == thisThread
    ensures forall i :: 0 <= i < |threads| && i != capacity - 1 ==> r[i] == threads[i]
    ensures !(|threads| > capacity && thisThread in threads[capacity..]) ==> r == threads
  {
    if |threads| > capacity && thisThread in threads[capacity..] then threads[capacity - 1 := thisThread]
    else threads
  }

  /** Whenever the crashed thread lies beyond the capacity and displaces a
      different thread, the as-written release list is not the enumeration:
      the crashed thread's port is released once more than it was handed out. */
  lemma ReleasedPortsAsWrittenLosesPort(threads: seq<Thread>, thisThread: Thread, capacity: nat)
    requires capacity >= 1 && |threads| > capacity
    requires thisThread in threads[capacity..]
    requires threads[capacity - 1] != thisThread
    ensures multiset(ReleasedPortsAsWritten(threads, thisThread, capacity))[thisThread]
              == multiset(threads)[thisThread] + 1
    ensures multiset(ReleasedPortsAsWritten(threads, thisThread, capacity)) != multiset(threads)
  {
    var r := ReleasedPortsAsWritten(threads, thisThread, capacity);
    var i := capacity - 1;
    assert threads == threads[..i] + [threads[i]] + threads[i + 1..];
    assert r == threads[..i] + [thisThread] + threads[i + 1..];
  }

  /** With three threads, a capacity of two and the crashed thread last, the
      displaced thread's port is never released and the crashed thread's
      port is released twice. */
  lemma ReleasedPortsAsWrittenMisses()
    ensures ReleasedPortsAsWritten([1, 2, 3], 3, 2) == [1, 3, 3]
    ensures multiset(ReleasedPortsAsWritten([1, 2, 3], 3, 2)) != multiset([1, 2, 3])
  {
    assert [1, 2, 3][2..] == [3];
    assert multiset([1, 3, 3])[2] == 0;
  }

  /** `getThreadList`, with ports released from the unmodified enumeration:
      on success the list is stored, the count set, and every enumerated port
      released exactly once; on failure nothing changes. */
  function FillThreadList(ctx: Context, enumeration: Option<seq<Thread>>): (r: ThreadListResult)
    requires |ctx.allThreads| >= 1
    ensures enumeration.None? ==> r.context == ctx && r.released == []
    ensures enumeration.Some? ==> |r.context.allThreads| == |ctx.allThreads|
    ensures enumeration.Some? ==> r.context.threadCount == Min(|enumeration.value|, |ctx.allThreads|)
    ensures enumeration.Some? ==>
              r.context.allThreads ==
                ThreadListFor(enumeration.value, ctx.thisThread, |ctx.allThreads|)
                + ctx.allThreads[Min(|enumeration.value|, |ctx.allThreads|)..]
    ensures enumeration.Some? ==>
              r.context == ctx.(allThreads := r.context.allThreads, threadCount := r.context.threadCount)
    ensures enumeration.Some? ==> multiset(r.released) == multiset(enumeration.value)
  {
    match enumeration
    case None => ThreadListResult(ctx, [])
    case Some(ts) =>
      var list := ThreadListFor(ts, ctx.thisThread, |ctx.allThreads|);
      var stored := list + ctx.allThreads[|list|..];
      assert stored[..|list|] == list;
      ThreadListResult(ctx.(allThreads := stored, threadCount := |list|), ts)
  }

  // ---------------------------------------------------------------------
  // Capturing contexts

  predicate IsCrashedContext(c: Context) { c.isCrashedContext }

  /** Registers are meaningful for any other thread, and for the current
      thread only when they come from a signal delivery. */
  predicate CanHaveCPUState(c: Context) {
    !c.isCurrentThread || c.isSignalContext
  }

  predicate HasValidExceptionRegisters(c: Context) {
    CanHaveCPUState(c) && IsCrashedContext(c)
  }

  /** The zeroed context `memset` produces, with room for `capacity` threads. */
  function ZeroContext(capacity: nat): Context {
    Context(0, seq(capacity, _ => 0), 0, false, false, false, false, ZeroMContext)
  }

  /** `ksmc_getContextForThread`: zeroes the context, records the thread,
      fetches registers unless it is the calling thread, and for a crashed
      context also records the overflow verdict and the thread list. */
  function GetContextForThread(thread: Thread, self: Thread, isCrashedContext: bool, probe: Probe, capacity: nat): (r: Context)
    requires capacity >= 1
    ensures r.thisThread == thread
    ensures r.isCurrentThread == (thread == self)
    ensures r.isCrashedContext == isCrashedContext && !r.isSignalContext
    ensures |r.allThreads| == capacity
    ensures CanHaveCPUState(r) <==> thread != self
    ensures HasValidExceptionRegisters(r) <==> thread != self && isCrashedContext
    ensures r.machineContext == if thread != self then probe.registers else ZeroMContext
    ensures r.isStackOverflow == (isCrashedContext && probe.stackOverflow)
    ensures !isCrashedContext || probe.enumeration.None? ==> r.threadCount == 0 && r.allThreads == seq(capacity, _ => 0)
    ensures isCrashedContext && probe.enumeration.Some? ==>
              r.threadCount == Min(|probe.enumeration.value|, capacity) &&
              r.allThreads ==
                ThreadListFor(probe.enumeration.value, thread, capacity)
                + seq(capacity - Min(|probe.enumeration.value|, capacity), _ => 0)
  {
    var zeroed := ZeroContext(capacity).(
      thisThread := thread,
      isCurrentThread := thread == self,
      isCrashedContext := isCrashedContext,
      isSignalContext := false);
    var filled := if CanHaveCPUState(zeroed) then zeroed.(machineContext := probe.registers) else zeroed;
    if IsCrashedContext(filled) then
      FillThreadList(filled.(isStackOverflow := probe.stackOverflow), probe.enumeration).context
    else filled
  }

  /** `ksmc_getContextForSignal`: copies the signal's registers into the
      destination, marks it crashed and signal-delivered for the calling
      thread, and records the overflow verdict and thread list. The
      destination is not zeroed first, so `isCurrentThread` and, when the
      enumeration fails, the thread list keep what was there. */
  function GetContextForSignal(
    signalRegisters: MContext, self: Thread, dest: Context,
    stackOverflow: bool, enumeration: Option<seq<Thread>>): (r: Context)
    requires |dest.allThreads| >= 1
    ensures r.isCrashedContext && r.isSignalContext
    ensures CanHaveCPUState(r) && HasValidExceptionRegisters(r)
    ensures r.thisThread == self && r.machineContext == signalRegisters
    ensures r.isStackOverflow == stackOverflow
    ensures r.isCurrentThread == dest.isCurrentThread
    ensures |r.allThreads| == |dest.allThreads|
    ensures enumeration.None? ==> r.allThreads == dest.allThreads && r.threadCount == dest.threadCount
    ensures enumeration.Some? ==>
              r.threadCount == Min(|enumeration.value|, |dest.allThreads|) &&
              r.allThreads ==
                ThreadListFor(enumeration.value, self, |dest.allThreads|)
                + dest.allThreads[Min(|enumeration.value|, |dest.allThreads|)..]
  {
    var c := dest.(
      machineContext := signalRegisters,
      thisThread := self,
      isCrashedContext := true,
      isSignalContext := true,
      isStackOverflow := stackOverflow);
    FillThreadList(c, enumeration).context
  }

  // ---------------------------------------------------------------------
  // Accessors

  function ThreadCount(c: Context): int { c.threadCount }

  function ThreadAtIndex(c: Context, index: int): Thread
    requires 0 <= index < |c.allThreads|
  {
    c.allThreads[index]
  }

  /** `ksmc_indexOfThread`: the least index below the thread count holding
      `thread`, or -1. */
  method IndexOfThread(c: Context, thread: Thread) returns (index: int)
    requires c.threadCount <= |c.allThreads|
    ensures index == -1 || 0 <= index < c.threadCount
    ensures index >= 0 ==> ThreadAtIndex(c, index) == thread
    ensures index >= 0 ==> forall j :: 0 <= j < index ==> c.allThreads[j] != thread
    ensures index == -1 <==> forall j :: 0 <= j < c.threadCount ==> c.allThreads[j] != thread
  {
    var i := 0;
    while i < c.threadCount
      invariant 0 <= i <= |c.allThreads|
      invariant forall j :: 0 <= j < i ==> c.allThreads[j] != thread
    {
      if c.allThreads[i] == thread {
        return i;
      }
      i := i + 1;
    }
    return -1;
  }
}

=== FILE: signal_info.dfy ===
/** The static signal classification table: the fatal signals this system
    handles, their names, and the names of their `si_code` values. Signal and
    code numbers are those of Darwin's `<sys/signal.h>`; every property below
    is stated by name, so only their distinctness matters. */
module SignalInfo {
  import opened Common

  datatype CodeInfo = CodeInfo(code: int, name: string)

  /** One row of the fatal-signal table; `codes` is empty for a signal
      declared without a code table. */
  datatype SignalEntry = SignalEntry(sigNum: int, name: string, codes: seq<CodeInfo>)

  const SIGILL := 4
  const SIGTRAP := 5
  const SIGABRT := 6
  const SIGFPE := 8
  const SIGBUS := 10
  const SIGSEGV := 11
  const SIGSYS := 12
  const SIGPIPE := 13
  const SIGTERM := 15

  const SigIllCodes: seq<CodeInfo> := [
    CodeInfo(0, "ILL_NOOP"), CodeInfo(1, "ILL_ILLOPC"), CodeInfo(2, "ILL_ILLTRP"),
    CodeInfo(3, "ILL_PRVOPC"), CodeInfo(4, "ILL_ILLOPN"), CodeInfo(5, "ILL_ILLADR"),
    CodeInfo(6, "ILL_PRVREG"), CodeInfo(7, "ILL_COPROC"), CodeInfo(8, "ILL_BADSTK")
  ]

  /** Code 0 is named by the stringified literal, "0". */
  const SigTrapCodes: seq<CodeInfo> := [
    CodeInfo(0, "0"), CodeInfo(1, "TRAP_BRKPT"), CodeInfo(2, "TRAP_TRACE")
  ]

  const SigFpeCodes: seq<CodeInfo> := [
    CodeInfo(0, "FPE_NOOP"), CodeInfo(1, "FPE_FLTDIV"), CodeInfo(2, "FPE_FLTOVF"),
    CodeInfo(3, "FPE_FLTUND"), CodeInfo(4, "FPE_FLTRES"), CodeInfo(5, "FPE_FLTINV"),
    CodeInfo(6, "FPE_FLTSUB"), CodeInfo(7, "FPE_INTDIV"), CodeInfo(8, "FPE_INTOVF")
  ]

  const SigBusCodes: seq<CodeInfo> := [
    CodeInfo(0, "BUS_NOOP"), CodeInfo(1, "BUS_ADRALN"), CodeInfo(2, "BUS_ADRERR"),
    CodeInfo(3, "BUS_OBJERR")
  ]

  const SigSegvCodes: seq<CodeInfo> := [
    CodeInfo(0, "SEGV_NOOP"), CodeInfo(1, "SEGV_MAPERR"), CodeInfo(2, "SEGV_ACCERR")
  ]

  const SEGV_MAPERR := 1
  const SEGV_ACCERR := 2

  const FatalSignalData: seq<SignalEntry> := [
    SignalEntry(SIGABRT, "SIGABRT", []),
    SignalEntry(SIGBUS, "SIGBUS", SigBusCodes),
    SignalEntry(SIGFPE, "SIGFPE", SigFpeCodes),
    SignalEntry(SIGILL, "SIGILL", SigIllCodes),
    SignalEntry(SIGPIPE, "SIGPIPE", []),
    SignalEntry(SIGSEGV, "SIGSEGV", SigSegvCodes),
    SignalEntry(SIGSYS, "SIGSYS", []),
    SignalEntry(SIGTRAP, "SIGTRAP", SigTrapCodes),
    SignalEntry(SIGTERM, "SIGTERM", [])
  ]

  /** The separately declared list of signals treated as fatal. */
  const FatalSignalList: seq<int> := [
    SIGABRT, SIGBUS, SIGFPE, SIGILL, SIGPIPE, SIGSEGV, SIGSYS, SIGTRAP, SIGTERM
  ]

  /** `(signal, code, name)` is a row of the table: the independent reading
      the lookups are checked against. */
  ghost predicate Describes(sigNum: int, code: int, name: string) {
    exists si, ci ::
      0 <= si < |FatalSignalData| && 0 <= ci < |FatalSignalData[si].codes| &&
      FatalSignalData[si].sigNum == sigNum && FatalSignalData[si].codes[ci] == CodeInfo(code, name)
  }

  /** No signal number appears twice in the table. */
  ghost predicate DistinctSignals() {
    forall i, j :: 0 <= i < j < |FatalSignalData| ==> FatalSignalData[i].sigNum != FatalSignalData[j].sigNum
  }

  /** No code appears twice within one code table. */
  ghost predicate DistinctCodes(codes: seq<CodeInfo>) {
    forall i, j :: 0 <= i < j < |codes| ==> codes[i].code != codes[j].code
  }

  lemma TableIsWellFormed()
    ensures DistinctSignals()
    ensures forall si :: 0 <= si < |FatalSignalData| ==> DistinctCodes(FatalSignalData[si].codes)
  {
  }

  /** Name of `sigNum` if it is one of the fatal signals, else NULL. */
  function SignalName(sigNum: int): (r: Option<string>)
    ensures r.Some? <==> sigNum in FatalSignalList
    ensures forall i :: 0 <= i < |FatalSignalData| && FatalSignalData[i].sigNum == sigNum ==>
              r == Some(FatalSignalData[i].name)
  {
    TableIsWellFormed();
    SignalNameFrom(sigNum, 0)
  }

  function SignalNameFrom(sigNum: int, i: nat): (r: Option<string>)
    requires DistinctSignals()
    requires forall j :: 0 <= j < i && j < |FatalSignalData| ==> FatalSignalData[j].sigNum != sigNum
    ensures r.Some? <==> exists j :: 0 <= j < |FatalSignalData| && FatalSignalData[j].sigNum == sigNum
    ensures forall j :: 0 <= j < |FatalSignalData| && FatalSignalData[j].sigNum == sigNum ==>
              r == Some(FatalSignalData[j].name)
    decreases |FatalSignalData| - i
  {
    if i >= |FatalSignalData| then None
    else if FatalSignalData[i].sigNum == sigNum then Some(FatalSignalData[i].name)
    else SignalNameFrom(sigNum, i + 1)
  }

  /** The name of the first entry of `codes` whose code is `code`. */
  function CodeName(codes: seq<CodeInfo>, code: int): (r: Option<string>)
    ensures r.Some? ==> exists ci :: 0 <= ci < |codes| && codes[ci] == CodeInfo(code, r.value)
    ensures r.None? <==> forall ci :: 0 <= ci < |codes| ==> codes[ci].code != code
    ensures DistinctCodes(codes) ==>
              forall ci :: 0 <= ci < |codes| && codes[ci].code == code ==> r == Some(codes[ci].name)
  {
    if |codes| == 0 then None
    else if codes[0].code == code then Some(codes[0].name)
    else
      var r := CodeName(codes[1..], code);
      assert forall ci :: 1 <= ci < |codes| ==> codes[ci] == codes[1..][ci - 1];
      r
  }

  /** The code name of `(sigNum, code)`, or NULL. As in the source the scan
      over signals does not stop at the matching row: an unknown code moves on
      to the remaining rows, which (the numbers being distinct) never match. */
  function SignalCodeName(sigNum: int, code: int): (r: Option<string>)
    ensures r.Some? ==> Describes(sigNum, code, r.value)
    ensures r.None? ==> forall n :: !Describes(sigNum, code, n)
  {
    SignalCodeNameFrom(sigNum, code, 0)
  }

  function SignalCodeNameFrom(sigNum: int, code: int, si: nat): (r: Option<string>)
    ensures r.Some? ==> Describes(sigNum, code, r.value)
    ensures r.None? ==>
              forall s, ci ::
                (si <= s < |FatalSignalData| && 0 <= ci < |FatalSignalData[s].codes| && FatalSignalData[s].sigNum == sigNum)
                ==> FatalSignalData[s].codes[ci].code != code
    ensures r.None? && si == 0 ==> forall n :: !Describes(sigNum, code, n)
    decreases |FatalSignalData| - si
  {
    if si >= |FatalSignalData| then None
    else if FatalSignalData[si].sigNum == sigNum && CodeName(FatalSignalData[si].codes, code).Some? then
      CodeName(FatalSignalData[si].codes, code)
    else SignalCodeNameFrom(sigNum, code, si + 1)
  }

  /** `kssignal_fatalSignals`: the fatal-signal list, in table order. */
  function FatalSignals(): (r: seq<int>)
    ensures |r| == |FatalSignalData|
    ensures forall i :: 0 <= i < |r| ==> r[i] == FatalSignalData[i].sigNum
  {
    FatalSignalList
  }

  /** `kssignal_numFatalSignals`: the length of the fatal-signal table. */
  function NumFatalSignals(): (r: int)
    ensures r == |FatalSignalData| == |FatalSignals()|
  {
    |FatalSignalData|
  }

  /** There are nine fatal signals, pairwise distinct. */
  lemma NineDistinctFatalSignals()
    ensures NumFatalSignals() == 9
    ensures forall i, j :: 0 <= i < j < |FatalSignals()| ==> FatalSignals()[i] != FatalSignals()[j]
  {
    TableIsWellFormed();
  }

  /** Each fatal signal is named by its own stringified identifier. */
  lemma SignalNamesAreStringified()
    ensures SignalName(SIGABRT) == Some("SIGABRT")
    ensures SignalName(SIGBUS) == Some("SIGBUS")
    ensures SignalName(SIGFPE) == Some("SIGFPE")
    ensures SignalName(SIGILL) == Some("SIGILL")
    ensures SignalName(SIGPIPE) == Some("SIGPIPE")
    ensures SignalName(SIGSEGV) == Some("SIGSEGV")
    ensures SignalName(SIGSYS) == Some("SIGSYS")
    ensures SignalName(SIGTRAP) == Some("SIGTRAP")
    ensures SignalName(SIGTERM) == Some("SIGTERM")
  {
    assert FatalSignalData[0].sigNum == SIGABRT;
    assert FatalSignalData[1].sigNum == SIGBUS;
    assert FatalSignalData[2].sigNum == SIGFPE;
    assert FatalSignalData[3].sigNum == SIGILL;
    assert FatalSignalData[4].sigNum == SIGPIPE;
    assert FatalSignalData[5].sigNum == SIGSEGV;
    assert FatalSignalData[6].sigNum == SIGSYS;
    assert FatalSignalData[7].sigNum == SIGTRAP;
    assert FatalSignalData[8].sigNum == SIGTERM;
  }

  /** The two segmentation-fault codes are named after themselves. */
  lemma SegvCodeNames()
    ensures SignalCodeName(SIGSEGV, SEGV_MAPERR) == Some("SEGV_MAPERR")
    ensures SignalCodeName(SIGSEGV, SEGV_ACCERR) == Some("SEGV_ACCERR")
  {
    assert FatalSignalData[5].codes[1] == CodeInfo(SEGV_MAPERR, "SEGV_MAPERR");
    assert FatalSignalData[5].codes[2] == CodeInfo(SEGV_ACCERR, "SEGV_ACCERR");
    CodeNameIsUnique(SIGSEGV, SEGV_MAPERR, 5, 1);
    CodeNameIsUnique(SIGSEGV, SEGV_ACCERR, 5, 2);
  }

  /** A table row determines the code name of its (signal, code) pair. */
  lemma CodeNameIsUnique(sigNum: int, code: int, si: nat, ci: nat)
    requires si < |FatalSignalData| && ci < |FatalSignalData[si].codes|
    requires FatalSignalData[si].sigNum == sigNum && FatalSignalData[si].codes[ci].code == code
    ensures SignalCodeName(sigNum, code) == Some(FatalSignalData[si].codes[ci].name)
  {
    TableIsWellFormed();
    assert Describes(sigNum, code, FatalSignalData[si].codes[ci].name);
    var r := SignalCodeName(sigNum, code);
    var n := r.value;
    var s', c' :| 0 <= s' < |FatalSignalData| && 0 <= c' < |FatalSignalData[s'].codes| &&
      FatalSignalData[s'].sigNum == sigNum && FatalSignalData[s'].codes[c'] == CodeInfo(code, n);
    assert s' == si;
    assert c' == ci;
  }

  /** SIGTRAP with code 0 (a NULL dereference on arm) is named "0". */
  lemma TrapCodeZero()
    ensures SignalCodeName(SIGTRAP, 0) == Some("0")
  {
    assert FatalSignalData[7].codes[0] == CodeInfo(0, "0");
    CodeNameIsUnique(SIGTRAP, 0, 7, 0);
  }

  /** Signals declared without a code table have no code names at all. */
  lemma NoCodeTableMeansNoCodeName(code: int)
    ensures SignalCodeName(SIGABRT, code) == None
    ensures SignalCodeName(SIGPIPE, code) == None
    ensures SignalCodeName(SIGSYS, code) == None
    ensures SignalCodeName(SIGTERM, code) == None
  {
    TableIsWellFormed();
  }

  /** A code name is only ever found for a signal that has a name. */
  lemma CodeNameImpliesSignalName(sigNum: int, code: int)
    ensures SignalCodeName(sigNum, code).Some? ==> SignalName(sigNum).Some?
  {
    if SignalCodeName(sigNum, code).Some? {
      var n := SignalCodeName(sigNum, code).value;
      var si, ci :| 0 <= si < |FatalSignalData| && 0 <= ci < |FatalSignalData[si].codes| &&
        FatalSignalData[si].sigNum == sigNum && FatalSignalData[si].codes[ci] == CodeInfo(code, n);
      assert FatalSignals()[si] == sigNum;
    }
  }
}

=== FILE: stack_cursor.dfy ===
/** The stack cursor: a restartable, lazy walk over call-stack frames. The
    cursor's advance slot is a closed variant over the producers modelled
    here: the fallback installed when no producer is given, and the
    backtrace-array producer. Its reset slot is either `kssc_resetCursor`
    or a reset supplied by the caller. */
module StackCursor {
  import opened Common
  import CpuArm64

  /** The current frame. Only `address` is written by walking; the image and
      symbol fields are filled by symbolication. */
  datatype StackEntry = StackEntry(
    address: Word,
    imageAddress: Word,
    imageName: Option<string>,
    symbolAddress: Word,
    symbolName: Option<string>)

  const EmptyEntry := StackEntry(0, 0, None, 0, None)

  datatype CursorState = CursorState(currentDepth: int, hasGivenUp: bool)

  /** The payload of the backtrace producer: the array of return addresses,
      its declared length and the number of leading entries to skip. */
  datatype BacktraceContext = BacktraceContext(backtrace: seq<Word>, backtraceLength: int, skippedEntries: int)

  /** The reset slot. `ResetCursor` is `kssc_resetCursor`; `ProducerReset`
      stands for any reset a caller passes in, described by the state, frame
      and payload it leaves behind. */
  datatype ResetFn =
    | ResetCursor
    | ProducerReset(resetState: CursorState, resetEntry: StackEntry, resetContext: BacktraceContext)
  datatype AdvanceFn = FallbackAdvance | BacktraceAdvance
  datatype SymbolicateFn = Symbolicator

  datatype Cursor = Cursor(
    state: CursorState,
    stackEntry: StackEntry,
    context: BacktraceContext,
    resetFn: ResetFn,
    advanceFn: AdvanceFn,
    symbolicateFn: SymbolicateFn)

  /** The outcome of one `advanceCursor` call. */
  datatype Step = Step(advanced: bool, cursor: Cursor)

  /** A walk to exhaustion: the frames produced, and the cursor afterwards. */
  datatype Walk = Walk(frames: seq<Word>, final: Cursor)

  predicate IsReset(c: Cursor) {
    c.state == CursorState(0, false) && c.stackEntry == EmptyEntry
  }

  /** `kssc_resetCursor`: back to depth 0, not given up, empty frame. The
      producer payload and the operation slots are untouched. */
  function Reset(c: Cursor): (r: Cursor)
    ensures IsReset(r)
    ensures r.context == c.context && r.resetFn == c.resetFn
    ensures r.advanceFn == c.advanceFn && r.symbolicateFn == c.symbolicateFn
  {
    c.(state := CursorState(0, false), stackEntry := EmptyEntry)
  }

  /** Resetting twice is resetting once. */
  lemma ResetIsIdempotent(c: Cursor)
    ensures Reset(Reset(c)) == Reset(c)
  {
  }

  /** `kssc_initCursor`: installs the symbolicator, the given advance (or the
      fallback when NULL) and the given reset (or `kssc_resetCursor` when
      NULL), then runs the installed reset. */
  function InitCursor(c: Cursor, resetFn: Option<ResetFn>, advanceFn: Option<AdvanceFn>): (r: Cursor)
    ensures r.symbolicateFn == Symbolicator
    ensures r.advanceFn == advanceFn.GetOr(FallbackAdvance)
    ensures advanceFn.None? ==> r.advanceFn == FallbackAdvance
    ensures r.resetFn == resetFn.GetOr(ResetCursor)
    ensures resetFn.None? ==> r.resetFn == ResetCursor
    ensures ApplyReset(r) == r
    ensures r.resetFn == ResetCursor ==> IsReset(r) && r.context == c.context
  {
    var installed := c.(
      symbolicateFn := Symbolicator,
      advanceFn := if advanceFn.Some? then advanceFn.value else FallbackAdvance,
      resetFn := if resetFn.Some? then resetFn.value else ResetCursor);
    ApplyReset(installed)
  }

  /** Runs the cursor's own reset slot: the default reset clears the walk
      state and keeps the payload; a caller's reset leaves what it
      describes. No slot changes. */
  function ApplyReset(c: Cursor): (r: Cursor)
    ensures c.resetFn == ResetCursor ==> IsReset(r) && r.context == c.context
    ensures c.resetFn.ProducerReset? ==>
              && r.state == c.resetFn.resetState
              && r.stackEntry == c.resetFn.resetEntry
              && r.context == c.resetFn.resetContext
    ensures r.resetFn == c.resetFn && r.advanceFn == c.advanceFn && r.symbolicateFn == c.symbolicateFn
  {
    match c.resetFn
    case ResetCursor => Reset(c)
    case ProducerReset(state, entry, context) => c.(state := state, stackEntry := entry, context := context)
  }

  /** Running the installed reset a second time changes nothing, whichever
      reset is installed. */
  lemma ApplyResetIsIdempotent(c: Cursor)
    ensures ApplyReset(ApplyReset(c)) == ApplyReset(c)
  {
  }

  /** A backtrace payload the producer can index safely: the skip count is
      not negative and the array holds at least the declared length. */
  predicate ValidContext(ctx: BacktraceContext) {
    0 <= ctx.skippedEntries && ctx.backtraceLength <= |ctx.backtrace|
  }

  function EndDepth(ctx: BacktraceContext): int {
    ctx.backtraceLength - ctx.skippedEntries
  }

  /** The invariant of a backtrace cursor: depth stays within
      `0 .. max(0, length - skip)`. */
  predicate Inv(c: Cursor) {
    && ValidContext(c.context)
    && 0 <= c.state.currentDepth
    && (c.state.currentDepth <= EndDepth(c.context) || c.state.currentDepth == 0)
  }

  /** The fallback advance: always false, cursor unchanged. */
  function FallbackStep(c: Cursor): (r: Step)
    ensures !r.advanced && r.cursor == c
  {
    Step(false, c)
  }

  /** The backtrace producer's advance: emits the normalised entry at
      `currentDepth + skip` while it is in range and above the sentinel 1. */
  function BacktraceStep(c: Cursor): (r: Step)
    requires Inv(c)
    ensures Inv(r.cursor)
    ensures r.advanced <==>
              c.state.currentDepth < EndDepth(c.context) &&
              c.context.backtrace[c.state.currentDepth + c.context.skippedEntries] > 1
    ensures r.advanced ==>
              r.cursor.stackEntry.address ==
                CpuArm64.NormaliseInstructionPointer(c.context.backtrace[c.state.currentDepth + c.context.skippedEntries])
    ensures r.advanced ==> r.cursor.state.currentDepth == c.state.currentDepth + 1
    ensures r.advanced ==> r.cursor == c.(state := r.cursor.state, stackEntry := r.cursor.stackEntry)
    ensures r.advanced ==> r.cursor.stackEntry == c.stackEntry.(address := r.cursor.stackEntry.address)
    ensures !r.advanced ==> r.cursor == c
  {
    var ctx := c.context;
    if c.state.currentDepth < EndDepth(ctx) then
      var nextAddress := ctx.backtrace[c.state.currentDepth + ctx.skippedEntries];
      if nextAddress > 1 then
        var entry := c.stackEntry.(address := CpuArm64.NormaliseInstructionPointer(nextAddress));
        Step(true, c.(stackEntry := entry, state := c.state.(currentDepth := c.state.currentDepth + 1)))
      else Step(false, c)
    else Step(false, c)
  }

  /** `cursor->advanceCursor(cursor)`: dispatch on the installed slot. */
  function Advance(c: Cursor): (r: Step)
    requires c.advanceFn == BacktraceAdvance ==> Inv(c)
    ensures c.advanceFn == FallbackAdvance ==> !r.advanced && r.cursor == c
    ensures c.advanceFn == BacktraceAdvance ==> r == BacktraceStep(c)
  {
    match c.advanceFn
    case FallbackAdvance => FallbackStep(c)
    case BacktraceAdvance => BacktraceStep(c)
  }

  /** `kssc_initWithBacktrace`: a cursor with the default reset and the
      backtrace advance, over `backtrace[skip .. length)`. */
  function InitWithBacktrace(c: Cursor, backtrace: seq<Word>, backtraceLength: int, skipEntries: int): (r: Cursor)
    requires 0 <= skipEntries && backtraceLength <= |backtrace|
    ensures IsReset(r) && Inv(r)
    ensures r.advanceFn == BacktraceAdvance && r.resetFn == ResetCursor && r.symbolicateFn == Symbolicator
    ensures r.context == BacktraceContext(backtrace, backtraceLength, skipEntries)
  {
    var initialised := InitCursor(c, Some(ResetCursor), Some(BacktraceAdvance));
    initialised.(context := BacktraceContext(backtrace, backtraceLength, skipEntries))
  }

  /** The reference reading of a walk: the normalised entries of `s` up to
      the first sentinel (an address of 0 or 1). */
  function ValidFrames(s: seq<Word>): seq<Word> {
    if |s| == 0 || s[0] <= 1 then []
    else [CpuArm64.NormaliseInstructionPointer(s[0])] + ValidFrames(s[1..])
  }

  /** The frames a backtrace cursor promises: from index `skip` up to the
      declared length or the first sentinel. */
  function Frames(ctx: BacktraceContext): seq<Word>
    requires ValidContext(ctx)
  {
    if ctx.skippedEntries >= ctx.backtraceLength then []
    else ValidFrames(ctx.backtrace[ctx.skippedEntries .. ctx.backtraceLength])
  }

  /** Advances a backtrace cursor until `advance` returns false. The final
      cursor is stuck: advancing it again fails and changes nothing. */
  function WalkToEnd(c: Cursor): (r: Walk)
    requires Inv(c) && c.advanceFn == BacktraceAdvance
    ensures Inv(r.final) && r.final.advanceFn == BacktraceAdvance
    ensures !Advance(r.final).advanced && Advance(r.final).cursor == r.final
    ensures r.final.context == c.context
    ensures |r.frames| == r.final.state.currentDepth - c.state.currentDepth
    decreases EndDepth(c.context) - c.state.currentDepth
  {
    var step := BacktraceStep(c);
    if step.advanced then
      var rest := WalkToEnd(step.cursor);
      Walk([step.cursor.stackEntry.address] + rest.frames, rest.final)
    else Walk([], c)
  }

  /** Walking from depth d yields exactly the valid frames of the
      remaining array slice. */
  lemma {:induction false} WalkFromDepth(c: Cursor)
    requires Inv(c) && c.advanceFn == BacktraceAdvance
    ensures c.state.currentDepth + c.context.skippedEntries <= c.context.backtraceLength ==>
              WalkToEnd(c).frames ==
                ValidFrames(c.context.backtrace[c.state.currentDepth + c.context.skippedEntries .. c.context.backtraceLength])
    ensures c.state.currentDepth + c.context.skippedEntries > c.context.backtraceLength ==>
              WalkToEnd(c).frames == []
    decreases EndDepth(c.context) - c.state.currentDepth
  {
    var ctx := c.context;
    var i := c.state.currentDepth + ctx.skippedEntries;
    var step := BacktraceStep(c);
    if step.advanced {
      WalkFromDepth(step.cursor);
      var s := ctx.backtrace[i .. ctx.backtraceLength];
      assert s[1..] == ctx.backtrace[i + 1 .. ctx.backtraceLength];
    }
  }

  /** A freshly initialised backtrace cursor yields exactly `Frames`, and
      then refuses to advance. */
  lemma WalkYieldsFrames(c: Cursor, backtrace: seq<Word>, backtraceLength: int, skipEntries: int)
    requires 0 <= skipEntries && backtraceLength <= |backtrace|
    ensures WalkToEnd(InitWithBacktrace(c, backtrace, backtraceLength, skipEntries)).frames ==
              Frames(BacktraceContext(backtrace, backtraceLength, skipEntries))
  {
    WalkFromDepth(InitWithBacktrace(c, backtrace, backtraceLength, skipEntries));
  }

  /** A skip count at or past the length makes the very first advance fail. */
  lemma SkipPastEndYieldsNothing(c: Cursor, backtrace: seq<Word>, backtraceLength: int, skipEntries: int)
    requires 0 <= skipEntries && backtraceLength <= |backtrace|
    requires skipEntries >= backtraceLength
    ensures !Advance(InitWithBacktrace(c, backtrace, backtraceLength, skipEntries)).advanced
  {
  }

  /** After any amount of walking, a reset replays the same frames from the
      start: reset keeps the array, its length and the skip count. */
  lemma ResetReplays(c: Cursor)
    requires Inv(c) && c.advanceFn == BacktraceAdvance
    ensures Reset(c).advanceFn == BacktraceAdvance && Inv(Reset(c))
    ensures WalkToEnd(Reset(c)).frames == Frames(c.context)
  {
    WalkFromDepth(Reset(c));
  }

  /** A sentinel (0 or 1) at the current index is never emitted: the cursor
      stops there and stays there. */
  lemma SentinelStops(c: Cursor)
    requires Inv(c) && c.advanceFn == BacktraceAdvance
    requires c.state.currentDepth < EndDepth(c.context)
    requires c.context.backtrace[c.state.currentDepth + c.context.skippedEntries] <= 1
    ensures WalkToEnd(c).frames == [] && WalkToEnd(c).final == c
  {
  }

  /** A non-sentinel head is emitted, normalised, ahead of the rest. */
  lemma ValidFramesCons(x: Word, s: seq<Word>)
    requires x > 1
    ensures ValidFrames([x] + s) == [CpuArm64.NormaliseInstructionPointer(x)] + ValidFrames(s)
  {
    assert ([x] + s)[1..] == s;
  }

  /** The frames promised for `[a, b, c, d]` with one skipped entry. */
  lemma ExampleFrames(a: Word, b: Word, c: Word, d: Word)
    requires b > 1 && c > 1 && d > 1
    ensures Frames(BacktraceContext([a, b, c, d], 4, 1)) ==
              [CpuArm64.NormaliseInstructionPointer(b), CpuArm64.NormaliseInstructionPointer(c),
               CpuArm64.NormaliseInstructionPointer(d)]
  {
    assert [a, b, c, d][1..4] == [b] + ([c] + ([d] + []));
    ValidFramesCons(d, []);
    ValidFramesCons(c, [d] + []);
    ValidFramesCons(b, [c] + ([d] + []));
  }

  /** The example walk: over `[a, b, c, d]` with one skipped entry the
      cursor yields b, c, d (normalised), stops, and replays after reset. */
  lemma ExampleWalk(cur: Cursor, a: Word, b: Word, c: Word, d: Word)
    requires b > 1 && c > 1 && d > 1
    ensures WalkToEnd(InitWithBacktrace(cur, [a, b, c, d], 4, 1)).frames ==
              [CpuArm64.NormaliseInstructionPointer(b), CpuArm64.NormaliseInstructionPointer(c),
               CpuArm64.NormaliseInstructionPointer(d)]
    ensures WalkToEnd(Reset(WalkToEnd(InitWithBacktrace(cur, [a, b, c, d], 4, 1)).final)).frames ==
              WalkToEnd(InitWithBacktrace(cur, [a, b, c, d], 4, 1)).frames
  {
    var init := InitWithBacktrace(cur, [a, b, c, d], 4, 1);
    WalkYieldsFrames(cur, [a, b, c, d], 4, 1);
    ExampleFrames(a, b, c, d);
    ResetReplays(WalkToEnd(init).final);
  }
}
